=== FILE: README.md ===
# Apparel store: cart, checkout and order rules in Dafny

This project models the logic of a small clothing web shop. The shop has a
React/TypeScript front end and a Django back end. The model covers:

- **Cart** (`cart.dfy`). The front-end cart reducer: ADD_ITEM merges into an
  existing item or appends a new one; REMOVE_ITEM filters; UPDATE_QUANTITY
  replaces quantities; CLEAR_CART empties the cart; any other action is
  ignored. After every transition the cached `total` is recomputed as
  Σ price × quantity.
- **CartAliasing** (`cart_aliasing.dfy`). The same ADD_ITEM merge, modelled at
  the level of JavaScript objects. Item objects live in a heap, so the
  in-place update of a shared item object can be seen (see Findings).
- **Checkout** (`checkout.dfy`). The three-step checkout machine (Shipping,
  Payment, Review): the Continue/Place Order button, the Back button, the step
  heading and the progress markers.
- **Catalog** (`catalog.dfy`). The mock catalog service: the category-slug
  product listing with its fallbacks, the product lookup by slug, and the
  order-submission stub. It also holds the built-in mock catalog.
- **Navbar** (`navbar.dfy`). The item count on the Cart link, the rule that
  highlights the link for the current location, and the count badge
  condition (see Findings).
- **Inventory** (`inventory.dfy`). The back end's stock and order arithmetic:
  - `update_stock`;
  - `process_order`, an all-or-nothing batch that checks stock, records each
    item at the current price and takes the stock;
  - `update_total` and `refund`;
  - the order-creation endpoint that refunds on failure.
- **Access** (`access.dfy`). The back end's decision rules:
  - the wishlist toggle;
  - one review per user and product;
  - registration, as written and with its missing import added (see Findings);
  - the admin permission;
  - the per-action permission of the product endpoints.

Shared helpers: `Wrappers` (`Option`, `Result`) and `Seqs` (`IndexWhere`,
which is `findIndex`; and `Filter`).

Modelling choices:
- Prices are integer cents.
- Quantities and stock are unbounded integers, because the cart reducer and
  the back end never clamp them. The cart and product pages clamp the
  quantity before they dispatch an action; those pages are not part of this
  model.
- The database is a map from product id to price and stock, plus sequences and
  maps for reviews, users and wishlists.
- Foreign calls become parameters:
  - whether the payment-intent call succeeds (`Inventory.Intent`);
  - whether the confirmation mail was sent (`mailSent`). Only the corrected
    registration `Access.Register` reaches the mail sender. As written, the
    view calls the sender by a name it never imported, so no mail is ever
    attempted (see Findings).

Three behaviours of the code are worth stating plainly:
- **Checkout only navigates.** The last checkout step navigates to
  `/order-confirmation` (Checkout.tsx:102-104). No order is submitted and the
  cart is not cleared. `Checkout.HandleNext` models the navigation alone.
- **The cart is never loaded.** The cart state is written to local storage
  on every change (CartContext.tsx:97) and never read back, so there is no
  load to model.
- **The merge mutates in place.** The ADD_ITEM merge branch changes the
  existing item object (CartContext.tsx:39) instead of building a new one;
  see Findings.

## Model

| member | source | states |
|---|---|---|
| Catalog.FindCategory | frontend/src/services/api.ts:60 | none iff no category carries the slug; otherwise the first category that does |
| Catalog.GetProducts | frontend/src/services/api.ts:55-67 | no slug or the empty slug lists the whole catalog; an unknown slug lists the whole catalog; a known slug lists exactly the products of that category (both directions of membership) |
| Catalog.GetProductsKeepsOrder | frontend/src/services/api.ts:62 | the category listing keeps catalog order: listing a catalog split in two is listing each half and concatenating |
| Catalog.GetProduct | frontend/src/services/api.ts:69-78 | fails with 'Product not found' iff no product has the slug; otherwise returns the first product with it |
| Catalog.CreateOrder | frontend/src/services/api.ts:85-87 | always fails with 'Not implemented' |
| Catalog.MockAccessoriesListing | frontend/src/services/mockData.ts:1-100 | on the built-in catalog the 'accessories' listing is exactly the leather belt |
| Catalog.MockUnknownSlugs | frontend/src/services/api.ts:59-75 | on the built-in catalog an unknown category slug lists all six products and an unknown product slug fails |
| Cart.FoldIsSum | frontend/src/context/CartContext.tsx:89 | the left fold with a starting value equals that value plus the sum over the items |
| Cart.CalculateTotal | frontend/src/context/CartContext.tsx:88-90 | the reduce over price × quantity is the sum of the line totals |
| Cart.IndexOfProduct | frontend/src/context/CartContext.tsx:33-35 | -1 iff no item has the product id; otherwise the first item that has it |
| Cart.AddItemTo | frontend/src/context/CartContext.tsx:32-53 | a product already in the cart gets the quantity added to its item, with the length unchanged and every other item unchanged; a new product gets exactly one item appended after the unchanged old items; the total is consistent |
| Cart.MergedItems | frontend/src/context/CartContext.tsx:37-45 | the merge branch's items are the old items with position k replaced by the merged item |
| Cart.RemoveItemFrom | frontend/src/context/CartContext.tsx:55-62 | the surviving items are exactly the old items of other products; the total is consistent |
| Cart.SetQuantity | frontend/src/context/CartContext.tsx:65-69 | same length and products; matching items get the new quantity and others keep theirs |
| Cart.UpdateQuantityIn | frontend/src/context/CartContext.tsx:64-75 | only the matching items change quantity, to the value given with no clamping; positions and products are kept; the total is consistent |
| Cart.Reduce | frontend/src/context/CartContext.tsx:30-86 | an unrecognised action returns the state unchanged; every other action leaves a consistent total; CLEAR_CART gives the empty cart with total 0 |
| Cart.FilterKeepsUniqueIds | frontend/src/context/CartContext.tsx:56 | filtering never introduces a duplicate product id |
| Cart.ReduceKeepsInvariant | frontend/src/context/CartContext.tsx:30-86 | every action preserves both the total invariant and unique product ids |
| Cart.Run | frontend/src/context/CartContext.tsx:30-86 | dispatching any sequence of actions from a state that satisfies both invariants reaches a state that satisfies them; no actions leave the state as it is |
| Cart.InitialStateIsEmpty | frontend/src/context/CartContext.tsx:93 | the store starts from the empty cart with total 0; it satisfies both invariants and is what CLEAR_CART returns from any state |
| Cart.ReachableCartsAreValid | frontend/src/context/CartContext.tsx:93 | every cart reachable from the empty initial cart has a correct total and unique product ids |
| Cart.AddItemQuantities | frontend/src/context/CartContext.tsx:37-52 | ADD_ITEM raises the quantity held for the added product by exactly the added amount and leaves every other product's quantity as it was |
| Cart.AddItemTotal | frontend/src/context/CartContext.tsx:37-52 | ADD_ITEM raises the total by price × quantity, where the price is that of the product stored at the first add when merging |
| Cart.RemoveAbsentIsNoop | frontend/src/context/CartContext.tsx:55-62 | removing an absent product leaves a consistent state unchanged |
| Cart.RemoveKeepsOrder | frontend/src/context/CartContext.tsx:56 | removal keeps the surviving items in order |
| Cart.RemoveUndoesAddOfNewProduct | frontend/src/context/CartContext.tsx:47-62 | adding a product that was not in the cart and then removing it restores the state |
| Cart.UpdateAbsentIsNoop | frontend/src/context/CartContext.tsx:64-75 | updating an absent product leaves a consistent state unchanged |
| Cart.UpdateQuantityIsIdempotent | frontend/src/context/CartContext.tsx:64-75 | setting the same quantity twice is setting it once |
| Cart.ClearIsIdempotent | frontend/src/context/CartContext.tsx:77-81 | clearing gives the initial empty cart from any state, so clearing twice is clearing once |
| Cart.MergeScenario | frontend/src/context/CartContext.tsx:32-90 | a product at 10.00: add 2 gives total 20.00; add 3 merges to 5 units and 50.00; update to 1 gives 10.00; remove gives the empty cart |
| CartAliasing.ItemsOf | frontend/src/context/CartContext.tsx:38 | the items a state denotes are the heap objects its references point to, position by position |
| CartAliasing.ItemsOfWrite | frontend/src/context/CartContext.tsx:39 | writing the object behind reference k changes exactly position k of the items a state denotes |
| CartAliasing.ItemsOfAllocate | frontend/src/context/CartContext.tsx:47 | allocating a new object changes no existing state's items |
| CartAliasing.MergeInPlace | frontend/src/context/CartContext.tsx:37-45 | the merge as written (copy the reference array, then write the shared object) keeps both states' references allocated and distinct |
| CartAliasing.AppendObject | frontend/src/context/CartContext.tsx:47-52 | the append branch allocates one new object and keeps both states' references well formed |
| CartAliasing.AddItemAsWritten | frontend/src/context/CartContext.tsx:32-53 | ADD_ITEM as written keeps both states' references well formed |
| CartAliasing.MergeInPlaceItems | frontend/src/context/CartContext.tsx:37-45 | after the in-place merge, both the new state and the previous state denote the merged items, and the new total is computed from them |
| CartAliasing.AppendObjectItems | frontend/src/context/CartContext.tsx:47-52 | after the append, the new state denotes the old items plus the new one and the previous state is unchanged |
| CartAliasing.AsWrittenNewStateIsCorrect | frontend/src/context/CartContext.tsx:32-53 | the state returned by the code as written is the cart the pure reducer computes |
| CartAliasing.AsWrittenChangesPreviousState | frontend/src/context/CartContext.tsx:38-39 | a merge with a non-zero quantity changes what the previous state denotes |
| CartAliasing.AsWrittenScenario | frontend/src/context/CartContext.tsx:37-45 | two units held, one added: the previous state shows three units against its cached total of 20.00; a replay on the previous state yields four units where the pure reducer yields three |
| CartAliasing.ReplaceWithNew | frontend/src/context/CartContext.tsx:37-45 | the corrected merge keeps both states' references well formed |
| CartAliasing.AddItemFresh | frontend/src/context/CartContext.tsx:32-53 | corrected ADD_ITEM keeps both states' references well formed |
| CartAliasing.ReplaceWithNewItems | frontend/src/context/CartContext.tsx:37-45 | the corrected merge gives the new state the merged items and leaves the previous state's items unchanged |
| CartAliasing.FreshAddIsPure | frontend/src/context/CartContext.tsx:32-53 | corrected ADD_ITEM returns exactly the pure reducer's cart and leaves the previous state unchanged |
| CartAliasing.FreshReplayIsStable | frontend/src/context/CartContext.tsx:32-53 | with the correction, replaying an action on the previous state gives the same cart again, and the previous total stays consistent |
| Checkout.StartIsShipping | frontend/src/components/Checkout.tsx:91 | the flow opens on step 0, 'Shipping', with no Back button and the button reading 'Continue' |
| Checkout.HandleNext | frontend/src/components/Checkout.tsx:99-106 | below the last step the index goes up by exactly one with no navigation; at the last step the index stays and the only effect is navigation to /order-confirmation |
| Checkout.GoBack | frontend/src/components/Checkout.tsx:141-145 | Back, offered only above step 0, lowers the index by exactly one and stays in range |
| Checkout.Step | frontend/src/components/Checkout.tsx:99-148 | a click keeps the step index within the three steps |
| Checkout.Run | frontend/src/components/Checkout.tsx:91-148 | any sequence of clicks keeps the step index within the three steps |
| Checkout.Title | frontend/src/components/Checkout.tsx:137 | the heading reads 'Shipping', 'Payment' and 'Review' at steps 0, 1 and 2 |
| Checkout.PrimaryLabel | frontend/src/components/Checkout.tsx:153 | the button reads 'Place Order' exactly at the last step and 'Continue' otherwise |
| Checkout.BackUndoesNext | frontend/src/components/Checkout.tsx:99-145 | after Continue below the last step, Back is offered and returns to the previous index |
| Checkout.NavigatesOnlyFromLastStep | frontend/src/components/Checkout.tsx:99-106 | the flow leaves the page iff the primary button is clicked at the last step, always for /order-confirmation; Back never leaves |
| Checkout.ContinueClicks | frontend/src/components/Checkout.tsx:91-106 | n Continue clicks from step 0 reach step n while steps remain, and the confirmation page after the last step |
| Checkout.RunAppend | frontend/src/components/Checkout.tsx:99-148 | running two click sequences one after the other is running their concatenation |
| Checkout.CheckoutScenario | frontend/src/components/Checkout.tsx:91-153 | two clicks reach 'Review' with 'Place Order'; a third navigates away; Back at step 0 does nothing |
| Checkout.HighlightedCirclesCount | frontend/src/components/Checkout.tsx:119 | exactly the circles up to and including the current step are highlighted |
| Checkout.HighlightedConnectorsCount | frontend/src/components/Checkout.tsx:124-127 | exactly the connectors before the current step are highlighted |
| Checkout.ProgressMarkers | frontend/src/components/Checkout.tsx:115-129 | at step i, i + 1 circles and i connectors are highlighted |
| Navbar.TotalItems | frontend/src/components/Navbar.tsx:8 | the reduce over quantities is their sum, 0 for an empty cart |
| Navbar.TotalItemsAfterAdd | frontend/src/components/Navbar.tsx:8 | ADD_ITEM raises the Cart link's count by exactly the added quantity |
| Navbar.TotalItemsAfterUpdate | frontend/src/components/Navbar.tsx:8 | UPDATE_QUANTITY changes the count by the new quantity minus the old |
| Navbar.StartsWith | frontend/src/components/Navbar.tsx:14 | the character-by-character prefix test holds iff the path is a prefix of the location |
| Navbar.IsActive | frontend/src/components/Navbar.tsx:10-15 | the home link is active iff the location is exactly '/'; any other link is active iff its path is a prefix of the location |
| Navbar.IsActiveMeansExtension | frontend/src/components/Navbar.tsx:10-15 | the home link is active iff the location is exactly '/'; any other link is active iff the location extends its path |
| Navbar.PrefixIsTextual | frontend/src/components/Navbar.tsx:14 | '/productsX' and '/products/classic-sneakers' both highlight Shop; '/products' does not highlight Home |
| Navbar.HomeAndShopExclusive | frontend/src/components/Navbar.tsx:10-15 | Home and Shop are never highlighted together |
| Navbar.NavLinks | frontend/src/components/Navbar.tsx:17-22 | four links to '/', '/products', '/cart' and '/orders'; only the Cart link carries a count, and it is the cart's item count |
| Navbar.BadgeAsWritten | frontend/src/components/Navbar.tsx:54-58 | the badge appears iff the count is defined and positive; a count of exactly 0 renders the stray text "0" |
| Navbar.BadgeCorrected | frontend/src/components/Navbar.tsx:54-58 | the badge appears iff the count is defined and positive, and nothing is rendered otherwise |
| Navbar.BadgeDiscrepancy | frontend/src/components/Navbar.tsx:54 | the two agree on every count except 0; for an empty cart the code renders "0" where nothing was intended |
| Navbar.OnlyCartHasBadge | frontend/src/components/Navbar.tsx:17-22 | as written and as intended, only the Cart link can show a badge, and it shows the cart's item count; as written the Cart link shows the stray "0" exactly when the cart holds no units |
| Inventory.StatusCode | backend/api/models.py:116-124 | Pending is stored as 'P', Completed as 'C' and Failed as 'F' |
| Inventory.StatusCodesDistinct | backend/api/models.py:116-124 | distinct payment statuses are stored as distinct codes |
| Inventory.NewOrderDefaults | backend/api/models.py:138-143 | a new order is Pending ('P') with no items and total 0 |
| Inventory.UpdateStock | backend/api/models.py:102-113 | a decrease fails with a validation error iff the stock is below the quantity; otherwise it subtracts, leaving non-negative stock; any other operation adds |
| Inventory.UpdateStockRoundTrip | backend/api/models.py:107-112 | an increase undoes a successful decrease; on non-negative stock a decrease undoes an increase |
| Inventory.ProcessItems | backend/api/models.py:168-188 | on success: prices and products unchanged; each stock reduced by the total demand for it; one item per request at the current price; non-negative stock stays non-negative |
| Inventory.FeasibleStep | backend/api/models.py:168-177 | a batch passes its checks iff its first request does and the rest passes on the stock that request leaves |
| Inventory.MissingBeforeShortageStep | backend/api/models.py:168-177 | a batch reaches a missing product iff its first request names none, or that request passes and the rest reaches one on the stock it leaves |
| Inventory.ProcessItemsStep | backend/api/models.py:168-188 | the first request fails with the lookup error on a missing product and with the stock error on too little stock; when it passes, the batch goes through iff the rest does on the stock it leaves |
| Inventory.ProcessItemsErrorKind | backend/api/models.py:168-177 | the loop fails with the lookup error iff some request names a missing product while every request before it passes its checks |
| Inventory.ProcessItemsSucceedsIffFeasible | backend/api/models.py:168-188 | the loop succeeds iff every request names a product and finds enough stock left after the earlier requests |
| Inventory.RecordedValue | backend/api/models.py:180-185 | items recorded at the current prices are worth Σ quantity × current price over the requests |
| Inventory.RecordedHeld | backend/api/models.py:180-185 | the recorded items hold exactly the requested quantity of every product |
| Inventory.LineSumAppend | backend/api/models.py:159-162 | the sum of quantity × price over two item lists is the sum of their sums |
| Inventory.UpdateTotal | backend/api/models.py:157-163 | the total becomes the sum over all the order's items, including ones recorded earlier; items and status unchanged |
| Inventory.ProcessOrder | backend/api/models.py:165-191 | succeeds iff the batch is feasible; fails with the lookup error iff a missing product is reached before any shortage, and with the stock error iff the batch fails otherwise; on failure neither table nor order changes; on success items are appended at current prices, stock drops by the demand and the total covers old and new items |
| Inventory.ErrorKindFollowsRequestOrder | backend/api/models.py:168-177 | the first failing request decides the error: a shortage before a missing product reports the shortage, and the reverse order reports the missing product |
| Inventory.ProcessOrderKeepsStockNonNegative | backend/api/models.py:174-188 | processing never drives non-negative stock negative |
| Inventory.RestoreStock | backend/api/models.py:196-197 | every product's stock goes up by the quantity the items hold of it; prices unchanged |
| Inventory.Refund | backend/api/models.py:193-199 | refund restores each item's quantity to its product and marks the order Failed, keeping items and total |
| Inventory.ProcessThenRefundRestores | backend/api/models.py:165-199 | processing a new order and refunding it restores the product table exactly |
| Inventory.CreateOrder | backend/api/views.py:158-208 | 201 iff the batch is feasible and the payment-intent call succeeds, and the order then stays Pending; a batch that fails on stock before reaching a missing product leaves the empty Pending order and the table as they were; a batch that reaches a missing product first, or an error from the intent call, refunds the order and leaves it Failed |
| Inventory.CreateOrderStock | backend/api/views.py:158-208 | a 400 answer leaves every stock as it was; a 201 answer takes exactly the requested quantities |
| Inventory.CreateOrderScenario | backend/api/views.py:158-208 | with two units on hand an order for two succeeds at 59.98 and empties the shelf; a following order for one is refused and changes nothing |
| Access.Toggle | backend/api/views.py:294-317 | a missing or zero id is refused with nothing changed; otherwise the user gets a wishlist; an unknown product leaves it as it was; a listed product is removed and an unlisted one added; other users' wishlists never change |
| Access.ToggleTwiceRestores | backend/api/views.py:307-312 | two toggles of an existing product restore the user's wishlist, answering 'removed' and 'added' |
| Access.SubmitReview | backend/api/views.py:113-132 | a review is stored iff the product exists, the user has not reviewed it and the rating is 1 to 5; a second review is refused first; nothing is stored otherwise |
| Access.SubmitReviewKeepsOneEach | backend/api/views.py:119-127 | no user ever holds two reviews of the same product |
| Access.SecondReviewRefused | backend/api/views.py:119-123 | once a review is stored, the same user's next review of that product is refused with nothing saved |
| Access.RegisterAsWritten | backend/api/views.py:210-243 | a password shorter than 8 (missing counts as empty) is refused before any user is created; a missing or taken email creates nothing; otherwise the user is stored with role 'user' and the reply is always the 400 error, because the mail sender's name is unbound at line 231; no request is ever answered 200 |
| Access.RegisterRetryRefused | backend/api/views.py:223-243 | as written, an address whose registration was answered 400 is stored anyway, so registering it again is refused as taken |
| Access.Register | backend/api/views.py:210-243 | with the mail sender imported: the same password and email checks; a user is stored with role 'user' iff they pass; the reply is 200 iff they pass and the mail is sent; a failed mail answers 400 with the user already stored |
| Access.RegisterDiscrepancy | backend/api/views.py:223-243 | the written and the corrected registration store the same users and give the same refusals; they differ exactly when a user was stored, where the written one always fails; a fresh address with a valid password gets 400 as written and 200 corrected |
| Access.RegisterCreatesNoAdmin | backend/api/models.py:10-14 | registration, as written and corrected, never changes an existing user's role and never creates an admin |
| Access.PermissionFor | backend/api/views.py:100-103 | AllowAny exactly for 'list' and 'retrieve' |
| Access.IsAdminUser | backend/api/views.py:319-321 | the admin permission holds iff the request is authenticated and the user's role has the admin property; an anonymous request never has it |
| Access.AdminAccess | backend/api/views.py:319-321 | a user who signed up through registration, as written or corrected, never passes the admin check |
| Access.ProductPermissions | backend/api/views.py:100-103 | anyone may list and retrieve; an anonymous request is refused every other action; an authenticated user is allowed every action |

## Left out

- Local storage: the cart state is written on every change and never read back, so there is no persistence to model.
- React wiring: hooks, rendering, routing and styling. The reducer and the step index are plain functions; the rendered badge is an abstract slot.
- Simulated network delay: the mock service's `delay` is dropped; every query is a pure function.
- Floating-point prices: front-end prices are integer cents, and the back end's two-decimal fields are integer cents too.
- The price-range query filters: they parse floats from query strings.
- Payment provider, token generation and mail sending: these are foreign calls. The intent call's outcome is the parameter `Inventory.Intent`. The mail outcome is the parameter `mailSent` of the corrected `Access.Register` only; the view as written never reaches a mail sender. Creating a payment intent takes no money, so no order reaches Completed here. The cents conversion of the intent amount is not modelled.
- Caching, throttling, `select_for_update` locking and concurrent requests.
- Other endpoints: login, email confirmation, view tracking, analytics and the admin dashboard.
- Transaction configuration: the settings that decide whether each request runs in one transaction are not part of this model. `Access.RegisterAsWritten` follows the view as written, where the user is already stored when the error reply is sent.
- A non-numeric `product_id`: such a request raises an error, and the model takes product ids as integers.
- A missing `product_id` or `quantity` key in an order item: the model takes both fields as present.
- The hard-coded review totals on the checkout page, and the `getOrders` and `createPaymentIntent` stubs.
- Product fields with no behaviour here: description, image, size and timestamps.
- Catalog.GetProducts: the known-slug listing is stated by membership in both directions. Its order is stated separately by Catalog.GetProductsKeepsOrder.
- Inventory.UpdateStockRoundTrip: the decrease-after-increase direction is stated only for non-negative stock. On negative stock the guard can refuse it.

## Findings

| source | as written | input that shows it | evidently intended | confidence | as-written member | corrected member |
|---|---|---|---|---|---|---|
| frontend/src/context/CartContext.tsx:39 | The ADD_ITEM merge copies the array of item references. It then increments the quantity field of the existing item object in place. That object is shared with the previous state. | A cart holding 2 units of a 10.00 product (total 20.00), then ADD_ITEM of 1 more unit. The previous state now shows 3 units against its cached 20.00. Running the reducer twice on the same previous state, as React's development mode does, gives 4 units instead of 3. | Build a new item object for the merged entry. This leaves the previous state untouched, as a pure reducer should. | medium; not executed; whether the double run happens depends on the app entry point, which is not part of this model | CartAliasing.AsWrittenScenario | CartAliasing.FreshAddIsPure |
| backend/api/views.py:231 | `register_user` calls `send_confirmation_email`, but views.py never imports that name; only utils.py:10 defines it. The NameError is caught at line 239 and answered with 400, after `User.objects.create` at line 223 has stored the user. | Any registration with a fresh email and a password of 8 or more characters, such as `a@b.c` with `password1`. The reply is 400, the user exists, and a retry is refused because the email is taken. | Import `send_confirmation_email` from `.utils`, so that the mail is sent and the reply is 200 with a token. | high; not executed | Access.RegisterDiscrepancy | Access.Register |
| frontend/src/components/Navbar.tsx:54 | `count && count > 0 && badge`: when the count is 0 the expression evaluates to the number 0. React renders that number as the text "0". | An empty cart: the Cart link's count is 0, so "0" is rendered next to the "Cart" label. | Render nothing unless the count is positive, for example with `count > 0 && badge`. | high; not executed | Navbar.BadgeDiscrepancy | Navbar.BadgeCorrected |

=== FILE: access.dfy ===
/** The back end's small decision rules: the wishlist toggle, the
    one-review-per-user rule, the password rule of registration, the admin
    permission and the per-action permission of the product endpoints. The
    database is abstracted to maps and sequences; a user is an integer id. */
module Access {
  import opened Wrappers
  import opened Http

  const AdminRole: string := "admin"
  const UserRole: string := "user"

  /** The shortest accepted password. */
  const MinPasswordLength: int := 8

  // ---------------------------------------------------------------------
  // WishlistViewSet.toggle_product
  // ---------------------------------------------------------------------

  /** Each user's wishlist, as the set of product ids on it. */
  type Wishlists = map<int, set<int>>

  datatype ToggleReply = MissingId | ProductNotFound | Removed | Added

  function ToggleStatus(reply: ToggleReply): int {
    match reply
    case MissingId => BadRequest
    case ProductNotFound => NotFound
    case Removed => Ok
    case Added => Ok
  }

  /** The user's wishlist, or an empty one if they have none yet. */
  function WishlistOf(lists: Wishlists, user: int): set<int> {
    if user in lists then lists[user] else {}
  }

  /** The toggle. A missing id, or the id 0 (which is falsy), is refused
      before anything happens. Otherwise the user's wishlist is fetched or
      created first, and only then is the product looked up, so a request
      for an unknown product still leaves the user with a wishlist. */
  function Toggle(lists: Wishlists, products: set<int>, user: int, productId: Option<int>): (r: (Wishlists, ToggleReply))
    ensures productId.None? || productId == Some(0) <==> r.1 == MissingId
    ensures r.1 == MissingId ==> r.0 == lists
    ensures r.1 != MissingId ==> user in r.0 && forall u :: u in lists && u != user ==> u in r.0 && r.0[u] == lists[u]
    ensures r.1 != MissingId ==> r.0.Keys == lists.Keys + {user}
    ensures r.1 == ProductNotFound <==> productId.Some? && productId.value != 0 && productId.value !in products
    ensures r.1 == ProductNotFound ==> r.0[user] == WishlistOf(lists, user)
    ensures r.1 == Removed <==> productId.Some? && productId.value != 0 && productId.value in products
                                && productId.value in WishlistOf(lists, user)
    ensures r.1 == Removed ==> r.0[user] == WishlistOf(lists, user) - {productId.value}
    ensures r.1 == Added ==> r.0[user] == WishlistOf(lists, user) + {productId.value}
  {
    if productId.None? || productId.value == 0 then (lists, MissingId)
    else
      var id := productId.value;
      var list := WishlistOf(lists, user);
      if id !in products then (lists[user := list], ProductNotFound)
      else if id in list then (lists[user := list - {id}], Removed)
      else (lists[user := list + {id}], Added)
  }

  /** Two toggles of an existing product give the user back the wishlist
      they started with, and answer 'removed' and 'added' in some order. */
  lemma ToggleTwiceRestores(lists: Wishlists, products: set<int>, user: int, id: int)
    requires id != 0 && id in products
    ensures var once := Toggle(lists, products, user, Some(id));
            var twice := Toggle(once.0, products, user, Some(id));
            && twice.0 == lists[user := WishlistOf(lists, user)]
            && (user in lists ==> twice.0 == lists)
            && {once.1, twice.1} == {Removed, Added}
  {
    var list := WishlistOf(lists, user);
    if id in list {
      assert list - {id} + {id} == list;
    } else {
      assert list + {id} - {id} == list;
    }
  }

  // ---------------------------------------------------------------------
  // ProductViewSet.review
  // ---------------------------------------------------------------------

  datatype Review = Review(productId: int, userId: int, rating: int)

  datatype ReviewReply = ReviewNotFound | AlreadyReviewed | InvalidRating | ReviewCreated

  function ReviewStatus(reply: ReviewReply): int {
    match reply
    case ReviewNotFound => NotFound
    case AlreadyReviewed => BadRequest
    case InvalidRating => BadRequest
    case ReviewCreated => Created
  }

  predicate HasReviewed(reviews: seq<Review>, productId: int, userId: int) {
    exists i :: 0 <= i < |reviews| && reviews[i].productId == productId && reviews[i].userId == userId
  }

  /** The ratings the review's rating field accepts. */
  predicate ValidRating(rating: Option<int>) {
    rating.Some? && 1 <= rating.value <= 5
  }

  /** No user has reviewed a product twice. */
  predicate OneReviewEach(reviews: seq<Review>) {
    forall i, j :: 0 <= i < j < |reviews| ==>
      !(reviews[i].productId == reviews[j].productId && reviews[i].userId == reviews[j].userId)
  }

  /** Posting a review: an unknown product is not found; a user who has
      already reviewed the product is refused before the rating is looked
      at; a missing or out-of-range rating is refused; otherwise the review
      is stored. */
  function SubmitReview(reviews: seq<Review>, products: set<int>, productId: int, userId: int, rating: Option<int>): (r: (seq<Review>, ReviewReply))
    ensures r.1 == ReviewCreated <==> productId in products && !HasReviewed(reviews, productId, userId) && ValidRating(rating)
    ensures r.1 == AlreadyReviewed <==> productId in products && HasReviewed(reviews, productId, userId)
    ensures r.1 != ReviewCreated ==> r.0 == reviews
    ensures r.1 == ReviewCreated ==> r.0 == reviews + [Review(productId, userId, rating.value)]
  {
    if productId !in products then (reviews, ReviewNotFound)
    else if HasReviewed(reviews, productId, userId) then (reviews, AlreadyReviewed)
    else if !ValidRating(rating) then (reviews, InvalidRating)
    else (reviews + [Review(productId, userId, rating.value)], ReviewCreated)
  }

  /** Posting reviews keeps at most one review per user and product. */
  lemma SubmitReviewKeepsOneEach(reviews: seq<Review>, products: set<int>, productId: int, userId: int, rating: Option<int>)
    requires OneReviewEach(reviews)
    ensures OneReviewEach(SubmitReview(reviews, products, productId, userId, rating).0)
  {
    var r := SubmitReview(reviews, products, productId, userId, rating);
    if r.1 == ReviewCreated {
      assert forall i :: 0 <= i < |reviews| ==> r.0[i] == reviews[i];
    }
  }

  /** Once a review has been stored, the same user's second review of the
      same product is refused, whatever its rating. */
  lemma SecondReviewRefused(reviews: seq<Review>, products: set<int>, productId: int, userId: int, first: Option<int>, second: Option<int>)
    requires SubmitReview(reviews, products, productId, userId, first).1 == ReviewCreated
    ensures var after := SubmitReview(reviews, products, productId, userId, first).0;
            SubmitReview(after, products, productId, userId, second) == (after, AlreadyReviewed)
  {
    var after := SubmitReview(reviews, products, productId, userId, first).0;
    assert after[|reviews|].productId == productId && after[|reviews|].userId == userId;
  }

  // ---------------------------------------------------------------------
  // register_user
  // ---------------------------------------------------------------------

  /** The users, by email, with their role. */
  type Users = map<string, string>

  /** `UnboundSender` is the error raised when the view calls a mail sender
      whose name it never imported. */
  datatype RegisterReply = WeakPassword | MissingEmail | EmailTaken | UnboundSender | MailFailed | Registered

  function RegisterStatus(reply: RegisterReply): int {
    match reply
    case Registered => Ok
    case _ => BadRequest
  }

  /** Registration as the view is written. A password shorter than eight
      characters (a missing one counts as empty) is refused before anything
      is created; a missing or already used email fails the creation; the new
      user has the role 'user'. The view then calls the confirmation-mail
      sender by a name it never imported, so every registration that stored
      a user ends in the caught error and the 400 reply, with the user left
      in place. */
  function RegisterAsWritten(users: Users, email: Option<string>, password: Option<string>): (r: (Users, RegisterReply))
    ensures r.1 == WeakPassword <==> password.None? || |password.value| < MinPasswordLength
    ensures r.1 == UnboundSender <==>
              password.Some? && |password.value| >= MinPasswordLength && email.Some? && email.value !in users
    ensures r.1 == UnboundSender ==> r.0 == users[email.value := UserRole]
    ensures r.1 != UnboundSender ==> r.0 == users
    ensures r.1 in {WeakPassword, MissingEmail, EmailTaken, UnboundSender}
    ensures RegisterStatus(r.1) == BadRequest
  {
    var pw := if password.Some? then password.value else "";
    if |pw| < MinPasswordLength then (users, WeakPassword)
    else if email.None? then (users, MissingEmail)
    else if email.value in users then (users, EmailTaken)
    else (users[email.value := UserRole], UnboundSender)
  }

  /** As written, an address whose registration was answered with the error
      is nevertheless taken: trying again is refused as a duplicate. */
  lemma RegisterRetryRefused(users: Users, email: string, password: string)
    requires email !in users && |password| >= MinPasswordLength
    ensures var first := RegisterAsWritten(users, Some(email), Some(password));
            && first.1 == UnboundSender && RegisterStatus(first.1) == BadRequest
            && email in first.0
            && RegisterAsWritten(first.0, Some(email), Some(password)) == (first.0, EmailTaken)
  {
  }

  /** Registration with the mail sender imported, as evidently intended. The
      checks and the stored user are as written; a mail that was sent gives
      the 200 reply, and a failure to send it is reported as an error
      although the user has already been stored. */
  function Register(users: Users, email: Option<string>, password: Option<string>, mailSent: bool): (r: (Users, RegisterReply))
    ensures r.1 == WeakPassword <==> password.None? || |password.value| < MinPasswordLength
    ensures r.1 in {WeakPassword, MissingEmail, EmailTaken} <==> r.0 == users
    ensures r.1 in {MailFailed, Registered} ==> email.Some? && email.value !in users && r.0 == users[email.value := UserRole]
    ensures r.1 == Registered <==>
              password.Some? && |password.value| >= MinPasswordLength && email.Some? && email.value !in users && mailSent
  {
    var pw := if password.Some? then password.value else "";
    if |pw| < MinPasswordLength then (users, WeakPassword)
    else if email.None? then (users, MissingEmail)
    else if email.value in users then (users, EmailTaken)
    else
      var stored := users[email.value := UserRole];
      assert email.value in stored && email.value !in users;
      if mailSent then (stored, Registered) else (stored, MailFailed)
  }

  /** The written and the corrected registration store the same users and
      refuse the same requests; they differ exactly where the corrected one
      reaches the mail sender, where the written one always fails. On a fresh
      address with a valid password the corrected view answers 200 and the
      written one 400. */
  lemma RegisterDiscrepancy(users: Users, email: Option<string>, password: Option<string>, mailSent: bool)
    ensures var w := RegisterAsWritten(users, email, password);
            var c := Register(users, email, password, mailSent);
            && w.0 == c.0
            && (w.1 == UnboundSender <==> c.1 in {MailFailed, Registered})
            && (w.1 != UnboundSender ==> w.1 == c.1)
    ensures RegisterStatus(RegisterAsWritten(map[], Some("a@b.c"), Some("password1")).1) == BadRequest
    ensures RegisterStatus(Register(map[], Some("a@b.c"), Some("password1"), true).1) == Ok
  {
  }

  /** The admin property of a stored user. */
  predicate IsAdmin(role: string) {
    role == AdminRole
  }

  /** Registration never creates an admin and never changes an existing
      user's role. */
  lemma RegisterCreatesNoAdmin(users: Users, email: Option<string>, password: Option<string>, mailSent: bool)
    ensures var after := Register(users, email, password, mailSent).0;
            && (forall e :: e in users ==> e in after && after[e] == users[e])
            && (forall e :: e in after && e !in users ==> !IsAdmin(after[e]))
    ensures var after := RegisterAsWritten(users, email, password).0;
            && (forall e :: e in users ==> e in after && after[e] == users[e])
            && (forall e :: e in after && e !in users ==> !IsAdmin(after[e]))
  {
  }

  // ---------------------------------------------------------------------
  // IsAdminUser and ProductViewSet.get_permissions
  // ---------------------------------------------------------------------

  /** The user a request carries. */
  datatype RequestUser = Anonymous | Authenticated(id: int, role: string)

  /** `IsAdminUser`: a request from a signed-in user whose role is 'admin'. */
  function IsAdminUser(user: RequestUser): (r: bool)
    ensures r <==> user.Authenticated? && IsAdmin(user.role)
    ensures user.Anonymous? ==> !r
  {
    user.Authenticated? && user.role == AdminRole
  }

  datatype Permission = AllowAny | IsAuthenticated

  /** Listing and showing products is open; every other product action needs
      a signed-in user. */
  function PermissionFor(action: string): (p: Permission)
    ensures p == AllowAny <==> action == "list" || action == "retrieve"
  {
    if action in ["list", "retrieve"] then AllowAny else IsAuthenticated
  }

  predicate Allowed(p: Permission, user: RequestUser) {
    p == AllowAny || user.Authenticated?
  }

  /** A user who signed up through registration, as written or corrected,
      never passes the admin check. */
  lemma AdminAccess(users: Users, email: string, password: string, id: int)
    ensures email !in users ==>
              var after := RegisterAsWritten(users, Some(email), Some(password)).0;
              email in after ==> !IsAdminUser(Authenticated(id, after[email]))
    ensures email !in users ==>
              var after := Register(users, Some(email), Some(password), true).0;
              email in after ==> !IsAdminUser(Authenticated(id, after[email]))
  {
  }

  /** Anyone may list and show products; creating, changing, deleting or
      reviewing one needs a signed-in user, and a signed-in user may do
      all of them. */
  lemma ProductPermissions(user: RequestUser, action: string)
    ensures Allowed(PermissionFor("list"), Anonymous) && Allowed(PermissionFor("retrieve"), Anonymous)
    ensures action != "list" && action != "retrieve" ==> !Allowed(PermissionFor(action), Anonymous)
    ensures user.Authenticated? ==> Allowed(PermissionFor(action), user)
  {
  }
}

=== FILE: cart.dfy ===
/** The shopping-cart state engine of the storefront front end: a pure
    reducer from a cart state and an action to the next cart state.

    A cart is an ordered sequence of items, each holding the catalog product
    it was added with and a quantity, plus a cached `total`. Every transition
    recomputes `total` as the sum of price × quantity over the items, so the
    cached value always agrees with the items; product ids stay unique
    because an add for a product already in the cart merges into its item.
    Prices are integer cents; quantities are unbounded integers because the
    reducer itself never clamps them. */
module Cart {
  import opened Seqs
  import opened Catalog

  datatype CartItem = CartItem(product: Product, quantity: int)

  datatype CartState = CartState(items: seq<CartItem>, total: int)

  /** The four actions of the reducer, plus any other action value, which
      the reducer's default branch ignores. */
  datatype CartAction =
    | AddItem(product: Product, quantity: int)
    | RemoveItem(productId: int)
    | UpdateQuantity(productId: int, quantity: int)
    | ClearCart
    | Unrecognised

  /** The empty cart the store starts from. */
  const InitialState: CartState := CartState([], 0)

  // ---------------------------------------------------------------------
  // Sums over the items
  // ---------------------------------------------------------------------

  function LineTotal(item: CartItem): int {
    item.product.price * item.quantity
  }

  function Quantity(item: CartItem): int {
    item.quantity
  }

  /** The quantity an item contributes to product `id`. */
  function QuantityFor(id: int): CartItem -> int {
    (item: CartItem) => if item.product.id == id then item.quantity else 0
  }

  /** Σ f(item) over the items: the reference definition of every cart sum. */
  function SumOf(items: seq<CartItem>, f: CartItem -> int): int {
    if |items| == 0 then 0 else f(items[0]) + SumOf(items[1..], f)
  }

  /** `items.reduce((acc, item) => acc + f(item), acc)`: the left fold the
      front end uses to compute its sums. */
  function Fold(items: seq<CartItem>, f: CartItem -> int, acc: int): int {
    if |items| == 0 then acc else Fold(items[1..], f, acc + f(items[0]))
  }

  lemma {:induction false} FoldIsSum(items: seq<CartItem>, f: CartItem -> int, acc: int)
    ensures Fold(items, f, acc) == acc + SumOf(items, f)
  {
    if |items| > 0 {
      FoldIsSum(items[1..], f, acc + f(items[0]));
    }
  }

  lemma {:induction false} SumOfAppend(a: seq<CartItem>, b: seq<CartItem>, f: CartItem -> int)
    ensures SumOf(a + b, f) == SumOf(a, f) + SumOf(b, f)
  {
    if |a| == 0 {
      assert a + b == b;
    } else {
      assert (a + b)[1..] == a[1..] + b;
      SumOfAppend(a[1..], b, f);
    }
  }

  /** Replacing one item changes a sum by exactly the difference of the two
      items' contributions. */
  lemma {:induction false} SumOfUpdate(items: seq<CartItem>, k: int, x: CartItem, f: CartItem -> int)
    requires 0 <= k < |items|
    ensures SumOf(items[k := x], f) == SumOf(items, f) - f(items[k]) + f(x)
  {
    if k == 0 {
      assert items[k := x][1..] == items[1..];
    } else {
      assert items[k := x][1..] == items[1..][k - 1 := x];
      SumOfUpdate(items[1..], k - 1, x, f);
    }
  }

  /** `calculateTotal`: the fold over price × quantity, which is the sum of
      the line totals. */
  function CalculateTotal(items: seq<CartItem>): (t: int)
    ensures t == SumOf(items, LineTotal)
  {
    FoldIsSum(items, LineTotal, 0);
    Fold(items, LineTotal, 0)
  }

  // ---------------------------------------------------------------------
  // Invariants
  // ---------------------------------------------------------------------

  predicate TotalIsConsistent(s: CartState) {
    s.total == SumOf(s.items, LineTotal)
  }

  predicate UniqueIds(items: seq<CartItem>) {
    forall i, j :: 0 <= i < j < |items| ==> items[i].product.id != items[j].product.id
  }

  predicate Invariant(s: CartState) {
    TotalIsConsistent(s) && UniqueIds(s.items)
  }

  predicate HasProduct(items: seq<CartItem>, id: int) {
    exists i :: 0 <= i < |items| && items[i].product.id == id
  }

  function SameProduct(id: int): CartItem -> bool {
    (item: CartItem) => item.product.id == id
  }

  function OtherProduct(id: int): CartItem -> bool {
    (item: CartItem) => item.product.id != id
  }

  /** The position of the first item for product `id`, or -1. */
  function IndexOfProduct(items: seq<CartItem>, id: int): (k: int)
    ensures -1 <= k < |items|
    ensures k == -1 <==> !HasProduct(items, id)
    ensures 0 <= k ==> items[k].product.id == id && forall j :: 0 <= j < k ==> items[j].product.id != id
  {
    IndexWhere(items, SameProduct(id))
  }

  // ---------------------------------------------------------------------
  // The transitions
  // ---------------------------------------------------------------------

  /** ADD_ITEM. A product already in the cart has the quantity added to its
      first item, which keeps the product stored at the first add, and every
      other item stays as it was; a product not yet in the cart gets one new
      item appended after all existing ones. */
  function AddItemTo(s: CartState, product: Product, quantity: int): (r: CartState)
    ensures TotalIsConsistent(r)
    ensures HasProduct(s.items, product.id) ==>
              var k := IndexOfProduct(s.items, product.id);
              && |r.items| == |s.items|
              && r.items[k] == CartItem(s.items[k].product, s.items[k].quantity + quantity)
              && forall i :: 0 <= i < |s.items| && i != k ==> r.items[i] == s.items[i]
    ensures !HasProduct(s.items, product.id) ==> r.items == s.items + [CartItem(product, quantity)]
  {
    var k := IndexOfProduct(s.items, product.id);
    if k > -1 then
      var merged := s.items[k := CartItem(s.items[k].product, s.items[k].quantity + quantity)];
      CartState(merged, CalculateTotal(merged))
    else
      var appended := s.items + [CartItem(product, quantity)];
      CartState(appended, CalculateTotal(appended))
  }

  /** The items after a merge into position `k`, for reasoning about
      callers that hold the position. */
  lemma MergedItems(s: CartState, product: Product, quantity: int, k: int, x: CartItem)
    requires k == IndexOfProduct(s.items, product.id) && k > -1
    requires x == CartItem(s.items[k].product, s.items[k].quantity + quantity)
    ensures AddItemTo(s, product, quantity).items == s.items[k := x]
  {
  }

  /** REMOVE_ITEM. Exactly the items for other products survive. */
  function RemoveItemFrom(s: CartState, id: int): (r: CartState)
    ensures TotalIsConsistent(r)
    ensures forall i :: 0 <= i < |r.items| ==> r.items[i] in s.items && r.items[i].product.id != id
    ensures forall i :: 0 <= i < |s.items| && s.items[i].product.id != id ==> s.items[i] in r.items
  {
    var kept := Filter(s.items, OtherProduct(id));
    CartState(kept, CalculateTotal(kept))
  }

  /** The items with every item for product `id` set to quantity `q`. */
  function SetQuantity(items: seq<CartItem>, id: int, q: int): (r: seq<CartItem>)
    ensures |r| == |items|
    ensures forall i :: 0 <= i < |items| ==> r[i].product == items[i].product
    ensures forall i :: 0 <= i < |items| ==>
              r[i].quantity == (if items[i].product.id == id then q else items[i].quantity)
  {
    if |items| == 0 then []
    else
      var head := if items[0].product.id == id then CartItem(items[0].product, q) else items[0];
      [head] + SetQuantity(items[1..], id, q)
  }

  /** UPDATE_QUANTITY. The new quantity is stored as given, without any
      clamping; every item keeps its product and position. */
  function UpdateQuantityIn(s: CartState, id: int, quantity: int): (r: CartState)
    ensures TotalIsConsistent(r)
    ensures |r.items| == |s.items|
    ensures forall i :: 0 <= i < |s.items| ==> r.items[i].product == s.items[i].product
    ensures forall i :: 0 <= i < |s.items| && s.items[i].product.id == id ==> r.items[i].quantity == quantity
    ensures forall i :: 0 <= i < |s.items| && s.items[i].product.id != id ==> r.items[i] == s.items[i]
  {
    var updated := SetQuantity(s.items, id, quantity);
    CartState(updated, CalculateTotal(updated))
  }

  /** The cart reducer. */
  function Reduce(s: CartState, action: CartAction): (r: CartState)
    ensures action.Unrecognised? ==> r == s
    ensures !action.Unrecognised? ==> TotalIsConsistent(r)
    ensures action.ClearCart? ==> r.items == [] && r.total == 0
  {
    match action
    case AddItem(product, quantity) => AddItemTo(s, product, quantity)
    case RemoveItem(id) => RemoveItemFrom(s, id)
    case UpdateQuantity(id, quantity) => UpdateQuantityIn(s, id, quantity)
    case ClearCart => CartState([], 0)
    case Unrecognised => s
  }

  /** The state reached by dispatching `actions` in order. From a state
      that satisfies both invariants, every reachable state does too. */
  function Run(s: CartState, actions: seq<CartAction>): (r: CartState)
    ensures |actions| == 0 ==> r == s
    ensures Invariant(s) ==> Invariant(r)
    decreases |actions|
  {
    if |actions| == 0 then s
    else
      var next := Reduce(s, actions[0]);
      assert Invariant(s) ==> Invariant(next) by {
        if Invariant(s) {
          ReduceKeepsInvariant(s, actions[0]);
        }
      }
      Run(next, actions[1..])
  }

  // ---------------------------------------------------------------------
  // Properties
  // ---------------------------------------------------------------------

  lemma {:induction false} FilterKeepsUniqueIds(items: seq<CartItem>, p: CartItem -> bool)
    requires UniqueIds(items)
    ensures UniqueIds(Filter(items, p))
  {
    if |items| > 0 {
      var rest := Filter(items[1..], p);
      FilterKeepsUniqueIds(items[1..], p);
      if p(items[0]) {
        var r := [items[0]] + rest;
        assert Filter(items, p) == r;
        forall i, j | 0 <= i < j < |r|
          ensures r[i].product.id != r[j].product.id
        {
          assert r[j] == rest[j - 1];
          if i == 0 {
            assert rest[j - 1] in items[1..];
            var m :| 0 <= m < |items[1..]| && items[1..][m] == rest[j - 1];
            assert items[m + 1] == r[j];
          } else {
            assert r[i] == rest[i - 1];
          }
        }
      }
    }
  }

  /** Every transition keeps the two cart invariants: the total agrees with
      the items and no product id occurs twice. */
  lemma ReduceKeepsInvariant(s: CartState, action: CartAction)
    requires Invariant(s)
    ensures Invariant(Reduce(s, action))
  {
    var r := Reduce(s, action);
    match action
    case AddItem(product, quantity) =>
      if !HasProduct(s.items, product.id) {
        forall i, j | 0 <= i < j < |r.items|
          ensures r.items[i].product.id != r.items[j].product.id
        {
          if j == |s.items| {
            assert r.items[i] == s.items[i];
          }
        }
      }
    case RemoveItem(id) =>
      FilterKeepsUniqueIds(s.items, OtherProduct(id));
    case UpdateQuantity(id, quantity) =>
    case ClearCart =>
    case Unrecognised =>
  }

  /** Every cart reachable from the empty cart has a correct total and
      unique product ids. */
  lemma ReachableCartsAreValid(actions: seq<CartAction>)
    ensures Invariant(Run(InitialState, actions))
  {
  }

  /** The store starts from the empty cart with total 0, which satisfies
      both invariants and is the cart CLEAR_CART returns from any state. */
  lemma InitialStateIsEmpty(s: CartState)
    ensures InitialState.items == [] && InitialState.total == 0
    ensures Invariant(InitialState)
    ensures Reduce(s, ClearCart) == InitialState
  {
  }

  /** Adding changes the quantity held for product `id` by exactly the added
      amount when `id` is the added product, and not at all otherwise. */
  lemma AddItemQuantities(s: CartState, product: Product, quantity: int, id: int)
    ensures SumOf(AddItemTo(s, product, quantity).items, QuantityFor(id))
         == SumOf(s.items, QuantityFor(id)) + (if id == product.id then quantity else 0)
  {
    var k := IndexOfProduct(s.items, product.id);
    if k > -1 {
      SumOfUpdate(s.items, k, CartItem(s.items[k].product, s.items[k].quantity + quantity), QuantityFor(id));
    } else {
      SumOfAppend(s.items, [CartItem(product, quantity)], QuantityFor(id));
    }
  }

  /** Adding raises the total by price × quantity, where the price is that
      of the product stored at the first add when the product is already
      there, and the given product's price otherwise. */
  lemma AddItemTotal(s: CartState, product: Product, quantity: int)
    ensures var price := if HasProduct(s.items, product.id)
                         then s.items[IndexOfProduct(s.items, product.id)].product.price
                         else product.price;
            AddItemTo(s, product, quantity).total == SumOf(s.items, LineTotal) + price * quantity
  {
    var k := IndexOfProduct(s.items, product.id);
    if k > -1 {
      var x := CartItem(s.items[k].product, s.items[k].quantity + quantity);
      SumOfUpdate(s.items, k, x, LineTotal);
      assert LineTotal(x) - LineTotal(s.items[k]) == s.items[k].product.price * quantity;
    } else {
      SumOfAppend(s.items, [CartItem(product, quantity)], LineTotal);
    }
  }

  /** Removing a product that is not in the cart leaves the state as it was. */
  lemma RemoveAbsentIsNoop(s: CartState, id: int)
    requires TotalIsConsistent(s)
    requires !HasProduct(s.items, id)
    ensures Reduce(s, RemoveItem(id)) == s
  {
    FilterKeepsAll(s.items, OtherProduct(id));
  }

  /** Removal keeps the surviving items in their order: removing from a cart
      split in two is removing from each half. */
  lemma RemoveKeepsOrder(front: seq<CartItem>, back: seq<CartItem>, total: int, id: int)
    ensures RemoveItemFrom(CartState(front + back, total), id).items
         == RemoveItemFrom(CartState(front, total), id).items + RemoveItemFrom(CartState(back, total), id).items
  {
    FilterConcat(front, back, OtherProduct(id));
  }

  /** Removing a product right after adding it as a new item restores the
      cart: ADD_ITEM of a new product and REMOVE_ITEM are inverse. */
  lemma RemoveUndoesAddOfNewProduct(s: CartState, product: Product, quantity: int)
    requires TotalIsConsistent(s)
    requires !HasProduct(s.items, product.id)
    ensures Reduce(Reduce(s, AddItem(product, quantity)), RemoveItem(product.id)) == s
  {
    FilterConcat(s.items, [CartItem(product, quantity)], OtherProduct(product.id));
    FilterKeepsAll(s.items, OtherProduct(product.id));
  }

  /** Updating the quantity of a product that is not in the cart leaves the
      state as it was. */
  lemma UpdateAbsentIsNoop(s: CartState, id: int, quantity: int)
    requires TotalIsConsistent(s)
    requires !HasProduct(s.items, id)
    ensures Reduce(s, UpdateQuantity(id, quantity)) == s
  {
    var r := Reduce(s, UpdateQuantity(id, quantity));
    assert r.items == s.items;
  }

  /** Setting a quantity twice is the same as setting it once. */
  lemma UpdateQuantityIsIdempotent(s: CartState, id: int, quantity: int)
    ensures var once := Reduce(s, UpdateQuantity(id, quantity));
            Reduce(once, UpdateQuantity(id, quantity)) == once
  {
    var once := Reduce(s, UpdateQuantity(id, quantity));
    var twice := Reduce(once, UpdateQuantity(id, quantity));
    assert twice.items == once.items;
  }

  /** CLEAR_CART empties any cart, so clearing twice is clearing once. */
  lemma ClearIsIdempotent(s: CartState)
    ensures Reduce(s, ClearCart) == InitialState
    ensures Reduce(Reduce(s, ClearCart), ClearCart) == Reduce(s, ClearCart)
  {
  }

  /** A product priced 10.00 is added twice, updated and removed. */
  lemma MergeScenario()
    ensures var p := Product(1, 1, "P1", "p1", 1000, 10, true);
            var s1 := Reduce(InitialState, AddItem(p, 2));
            var s2 := Reduce(s1, AddItem(p, 3));
            var s3 := Reduce(s2, UpdateQuantity(1, 1));
            var s4 := Reduce(s3, RemoveItem(1));
            && s1 == CartState([CartItem(p, 2)], 2000)
            && s2 == CartState([CartItem(p, 5)], 5000)
            && s3 == CartState([CartItem(p, 1)], 1000)
            && s4 == InitialState
  {
    var p := Product(1, 1, "P1", "p1", 1000, 10, true);
    var s1 := Reduce(InitialState, AddItem(p, 2));
    assert s1.items == [CartItem(p, 2)];
    var s2 := Reduce(s1, AddItem(p, 3));
    assert s2.items == [CartItem(p, 5)];
    var s3 := Reduce(s2, UpdateQuantity(1, 1));
    assert s3.items == [CartItem(p, 1)];
    var s4 := Reduce(s3, RemoveItem(1));
    assert s4.items == [];
  }
}

=== FILE: cart_aliasing.dfy ===
/** The cart reducer's ADD_ITEM merge at the level of JavaScript objects.

    In the browser a cart state does not hold item values but references to
    item objects, and the merge branch copies the array of references and
    then increments the quantity field of the existing item object in place.
    The new state is correct, but the object is shared with the previous
    state, so the previous state's items change underneath its cached total.
    This module models the objects as a heap, the reducer branch as written,
    and the corrected branch that puts the merged item in a new object; the
    corrected branch is what the pure reducer of module `Cart` describes. */
module CartAliasing {
  import opened Catalog
  import opened Cart

  /** Item objects: a reference is an index; allocation appends. */
  type Heap = seq<CartItem>

  /** A cart state as the browser holds it: an array of item references and
      the cached total. */
  datatype StateRef = StateRef(refs: seq<nat>, total: int)

  /** Every reference of the state is allocated, and no object is listed
      twice (the reducer never puts one object in two places). */
  predicate WellFormed(h: Heap, s: StateRef) {
    && (forall i :: 0 <= i < |s.refs| ==> s.refs[i] < |h|)
    && (forall i, j :: 0 <= i < j < |s.refs| ==> s.refs[i] != s.refs[j])
  }

  /** The items the references point to. */
  function ItemsOf(h: Heap, refs: seq<nat>): (items: seq<CartItem>)
    requires forall i :: 0 <= i < |refs| ==> refs[i] < |h|
    ensures |items| == |refs|
    ensures forall i :: 0 <= i < |refs| ==> items[i] == h[refs[i]]
  {
    if |refs| == 0 then [] else [h[refs[0]]] + ItemsOf(h, refs[1..])
  }

  /** The cart value a state denotes in a heap. */
  function View(h: Heap, s: StateRef): CartState
    requires WellFormed(h, s)
  {
    CartState(ItemsOf(h, s.refs), s.total)
  }

  /** Writing one object changes exactly the item that references it. */
  lemma ItemsOfWrite(h: Heap, refs: seq<nat>, k: int, x: CartItem)
    requires forall i :: 0 <= i < |refs| ==> refs[i] < |h|
    requires forall i, j :: 0 <= i < j < |refs| ==> refs[i] != refs[j]
    requires 0 <= k < |refs|
    ensures ItemsOf(h[refs[k] := x], refs) == ItemsOf(h, refs)[k := x]
  {
    var a := ItemsOf(h[refs[k] := x], refs);
    var b := ItemsOf(h, refs)[k := x];
    forall i | 0 <= i < |refs|
      ensures a[i] == b[i]
    {
      if i != k {
        assert refs[i] != refs[k];
      }
    }
  }

  /** Allocating an object changes no existing item. */
  lemma ItemsOfAllocate(h: Heap, refs: seq<nat>, x: CartItem)
    requires forall i :: 0 <= i < |refs| ==> refs[i] < |h|
    ensures ItemsOf(h + [x], refs) == ItemsOf(h, refs)
  {
    var a := ItemsOf(h + [x], refs);
    forall i | 0 <= i < |refs|
      ensures a[i] == ItemsOf(h, refs)[i]
    {
    }
  }

  // ---------------------------------------------------------------------
  // ADD_ITEM as written
  // ---------------------------------------------------------------------

  /** The merge branch as written: the item object at position `k` is
      written in place and the new state reuses the same references. */
  function MergeInPlace(h: Heap, s: StateRef, k: int, quantity: int): (r: (Heap, StateRef))
    requires WellFormed(h, s)
    requires 0 <= k < |s.refs|
    ensures WellFormed(r.0, r.1) && WellFormed(r.0, s)
  {
    var item := h[s.refs[k]];
    var h' := h[s.refs[k] := CartItem(item.product, item.quantity + quantity)];
    (h', StateRef(s.refs, CalculateTotal(ItemsOf(h', s.refs))))
  }

  /** The append branch: a new item object, referenced at the end. */
  function AppendObject(h: Heap, s: StateRef, product: Product, quantity: int): (r: (Heap, StateRef))
    requires WellFormed(h, s)
    ensures WellFormed(r.0, r.1) && WellFormed(r.0, s)
  {
    var h' := h + [CartItem(product, quantity)];
    var refs := s.refs + [|h|];
    (h', StateRef(refs, CalculateTotal(ItemsOf(h', refs))))
  }

  function AddItemAsWritten(h: Heap, s: StateRef, product: Product, quantity: int): (r: (Heap, StateRef))
    requires WellFormed(h, s)
    ensures WellFormed(r.0, r.1) && WellFormed(r.0, s)
  {
    var k := IndexOfProduct(ItemsOf(h, s.refs), product.id);
    if k > -1 then MergeInPlace(h, s, k, quantity) else AppendObject(h, s, product, quantity)
  }

  lemma MergeInPlaceItems(h: Heap, s: StateRef, k: int, quantity: int)
    requires WellFormed(h, s)
    requires 0 <= k < |s.refs|
    ensures var r := MergeInPlace(h, s, k, quantity);
            var x := CartItem(h[s.refs[k]].product, h[s.refs[k]].quantity + quantity);
            && ItemsOf(r.0, r.1.refs) == ItemsOf(h, s.refs)[k := x]
            && ItemsOf(r.0, s.refs) == ItemsOf(h, s.refs)[k := x]
            && r.1.total == CalculateTotal(ItemsOf(h, s.refs)[k := x])
  {
    var x := CartItem(h[s.refs[k]].product, h[s.refs[k]].quantity + quantity);
    var r := MergeInPlace(h, s, k, quantity);
    assert r.0 == h[s.refs[k] := x];
    assert r.1.refs == s.refs;
    ItemsOfWrite(h, s.refs, k, x);
    assert ItemsOf(r.0, r.1.refs) == ItemsOf(h, s.refs)[k := x];
  }

  lemma AppendObjectItems(h: Heap, s: StateRef, product: Product, quantity: int)
    requires WellFormed(h, s)
    ensures var r := AppendObject(h, s, product, quantity);
            && ItemsOf(r.0, r.1.refs) == ItemsOf(h, s.refs) + [CartItem(product, quantity)]
            && ItemsOf(r.0, s.refs) == ItemsOf(h, s.refs)
  {
    var x := CartItem(product, quantity);
    var r := AppendObject(h, s, product, quantity);
    ItemsOfAllocate(h, s.refs, x);
    assert ItemsOf(r.0, r.1.refs) == ItemsOf(h, s.refs) + [x];
  }

  /** The state the as-written reducer returns is the right cart: the defect
      is not in the new state but in what happens to the previous one. */
  lemma AsWrittenNewStateIsCorrect(h: Heap, s: StateRef, product: Product, quantity: int)
    requires WellFormed(h, s)
    ensures var r := AddItemAsWritten(h, s, product, quantity);
            View(r.0, r.1) == AddItemTo(View(h, s), product, quantity)
  {
    var k := IndexOfProduct(ItemsOf(h, s.refs), product.id);
    if k > -1 {
      MergeInPlaceItems(h, s, k, quantity);
      MergedItems(View(h, s), product, quantity, k, CartItem(h[s.refs[k]].product, h[s.refs[k]].quantity + quantity));
    } else {
      AppendObjectItems(h, s, product, quantity);
    }
  }

  /** As written, a merge with a non-zero quantity changes the previous state:
      its item for the product now shows the new quantity. */
  lemma AsWrittenChangesPreviousState(h: Heap, s: StateRef, product: Product, quantity: int)
    requires WellFormed(h, s)
    requires HasProduct(View(h, s).items, product.id)
    requires quantity != 0
    ensures View(AddItemAsWritten(h, s, product, quantity).0, s) != View(h, s)
  {
    var k := IndexOfProduct(ItemsOf(h, s.refs), product.id);
    MergeInPlaceItems(h, s, k, quantity);
    var r := AddItemAsWritten(h, s, product, quantity);
    assert ItemsOf(r.0, s.refs)[k].quantity == ItemsOf(h, s.refs)[k].quantity + quantity;
  }

  /** The concrete case: a cart holding two units of a 10.00 product, one
      more unit added. Afterwards the previous state shows three units
      against its cached total of 20.00, and running the same action on the
      previous state again (as a development-mode double invocation of the
      reducer does) yields four units where the pure reducer yields three. */
  lemma AsWrittenScenario()
    ensures var p := Product(1, 1, "P1", "p1", 1000, 10, true);
            var h: Heap := [CartItem(p, 2)];
            var s := StateRef([0], 2000);
            var r1 := AddItemAsWritten(h, s, p, 1);
            var r2 := AddItemAsWritten(r1.0, s, p, 1);
            && TotalIsConsistent(View(h, s))
            && View(r1.0, s) == CartState([CartItem(p, 3)], 2000)
            && !TotalIsConsistent(View(r1.0, s))
            && View(r2.0, r2.1).items == [CartItem(p, 4)]
            && AddItemTo(View(h, s), p, 1).items == [CartItem(p, 3)]
  {
    var p := Product(1, 1, "P1", "p1", 1000, 10, true);
    var h: Heap := [CartItem(p, 2)];
    var s := StateRef([0], 2000);
    assert View(h, s).items == [CartItem(p, 2)];
    assert IndexOfProduct(View(h, s).items, 1) == 0;
    MergeInPlaceItems(h, s, 0, 1);
    var r1 := AddItemAsWritten(h, s, p, 1);
    assert r1.0 == [CartItem(p, 3)];
    assert View(r1.0, s).items == [CartItem(p, 3)];
    assert IndexOfProduct(View(r1.0, s).items, 1) == 0;
    MergeInPlaceItems(r1.0, s, 0, 1);
    var r2 := AddItemAsWritten(r1.0, s, p, 1);
    assert View(r2.0, r2.1).items == [CartItem(p, 4)];
  }

  // ---------------------------------------------------------------------
  // ADD_ITEM corrected
  // ---------------------------------------------------------------------

  /** The corrected merge: the merged item is a new object that replaces the
      old reference in the new state only. */
  function ReplaceWithNew(h: Heap, s: StateRef, k: int, quantity: int): (r: (Heap, StateRef))
    requires WellFormed(h, s)
    requires 0 <= k < |s.refs|
    ensures WellFormed(r.0, r.1) && WellFormed(r.0, s)
  {
    var item := h[s.refs[k]];
    var h' := h + [CartItem(item.product, item.quantity + quantity)];
    var refs := s.refs[k := |h|];
    (h', StateRef(refs, CalculateTotal(ItemsOf(h', refs))))
  }

  /** ADD_ITEM with every existing object left untouched. */
  function AddItemFresh(h: Heap, s: StateRef, product: Product, quantity: int): (r: (Heap, StateRef))
    requires WellFormed(h, s)
    ensures WellFormed(r.0, r.1) && WellFormed(r.0, s)
  {
    var k := IndexOfProduct(ItemsOf(h, s.refs), product.id);
    if k > -1 then ReplaceWithNew(h, s, k, quantity) else AppendObject(h, s, product, quantity)
  }

  lemma ReplaceWithNewItems(h: Heap, s: StateRef, k: int, quantity: int)
    requires WellFormed(h, s)
    requires 0 <= k < |s.refs|
    ensures var r := ReplaceWithNew(h, s, k, quantity);
            var x := CartItem(h[s.refs[k]].product, h[s.refs[k]].quantity + quantity);
            && ItemsOf(r.0, r.1.refs) == ItemsOf(h, s.refs)[k := x]
            && r.1.total == CalculateTotal(ItemsOf(h, s.refs)[k := x])
            && ItemsOf(r.0, s.refs) == ItemsOf(h, s.refs)
  {
    var x := CartItem(h[s.refs[k]].product, h[s.refs[k]].quantity + quantity);
    var r := ReplaceWithNew(h, s, k, quantity);
    assert r.0 == h + [x];
    ItemsOfAllocate(h, s.refs, x);
    assert ItemsOf(r.0, r.1.refs) == ItemsOf(h, s.refs)[k := x];
  }

  /** With new objects, the returned state is the right cart and the
      previous state still denotes exactly the cart it denoted before. */
  lemma FreshAddIsPure(h: Heap, s: StateRef, product: Product, quantity: int)
    requires WellFormed(h, s)
    ensures var r := AddItemFresh(h, s, product, quantity);
            && View(r.0, r.1) == AddItemTo(View(h, s), product, quantity)
            && View(r.0, s) == View(h, s)
  {
    var k := IndexOfProduct(ItemsOf(h, s.refs), product.id);
    if k > -1 {
      ReplaceWithNewItems(h, s, k, quantity);
      MergedItems(View(h, s), product, quantity, k, CartItem(h[s.refs[k]].product, h[s.refs[k]].quantity + quantity));
    } else {
      AppendObjectItems(h, s, product, quantity);
    }
  }

  /** With new objects, running an action on the previous state again gives
      the same cart again, and the previous state keeps a correct total. */
  lemma FreshReplayIsStable(h: Heap, s: StateRef, product: Product, quantity: int)
    requires WellFormed(h, s)
    requires TotalIsConsistent(View(h, s))
    ensures var r1 := AddItemFresh(h, s, product, quantity);
            var r2 := AddItemFresh(r1.0, s, product, quantity);
            && TotalIsConsistent(View(r1.0, s))
            && View(r2.0, r2.1) == View(r1.0, r1.1)
  {
    FreshAddIsPure(h, s, product, quantity);
    var r1 := AddItemFresh(h, s, product, quantity);
    FreshAddIsPure(r1.0, s, product, quantity);
  }
}

=== FILE: catalog.dfy ===
/** The mock catalog service of the storefront front end: category and
    product records, the category filter behind the product listing, the
    lookup behind the product page, and the order-submission stub. The
    simulated network delay is dropped; every query is a pure function of
    the catalog it reads. Prices are integer cents. */
module Catalog {
  import opened Wrappers
  import opened Seqs

  datatype Category = Category(id: int, name: string, slug: string)

  /** A product record as the catalog serves it; the cart stores it as given. */
  datatype Product = Product(
    id: int,
    category: int,
    name: string,
    slug: string,
    price: int,
    stock: int,
    available: bool)

  /** The fields an order submission would carry. */
  datatype OrderDraft = OrderDraft(productIds: seq<int>, quantities: seq<int>, totalAmount: int)

  const ProductNotFound: string := "Product not found"
  const NotImplemented: string := "Not implemented"

  function HasSlug(slug: string): Category -> bool {
    (c: Category) => c.slug == slug
  }

  function ProductHasSlug(slug: string): Product -> bool {
    (p: Product) => p.slug == slug
  }

  function InCategory(id: int): Product -> bool {
    (p: Product) => p.category == id
  }

  /** The first category carrying `slug`, if there is one. */
  function FindCategory(categories: seq<Category>, slug: string): (r: Option<Category>)
    ensures r.None? <==> forall i :: 0 <= i < |categories| ==> categories[i].slug != slug
    ensures r.Some? ==> r.value in categories && r.value.slug == slug
    ensures r.Some? ==> exists i :: 0 <= i < |categories| && categories[i] == r.value
                                  && forall j :: 0 <= j < i ==> categories[j].slug != slug
  {
    var i := IndexWhere(categories, HasSlug(slug));
    if i == -1 then None else Some(categories[i])
  }

  /** The product listing. No slug, or the empty slug, lists the whole
      catalog; a slug naming a category lists exactly that category's
      products in catalog order; an unknown slug falls back to the whole
      catalog. */
  function GetProducts(categories: seq<Category>, products: seq<Product>, slug: Option<string>): (r: seq<Product>)
    ensures slug.None? || slug.value == "" ==> r == products
    ensures slug.Some? && (forall i :: 0 <= i < |categories| ==> categories[i].slug != slug.value) ==> r == products
    ensures slug.Some? && slug.value != "" && FindCategory(categories, slug.value).Some? ==>
              var id := FindCategory(categories, slug.value).value.id;
              && (forall i :: 0 <= i < |r| ==> r[i] in products && r[i].category == id)
              && (forall i :: 0 <= i < |products| && products[i].category == id ==> products[i] in r)
  {
    if slug.None? || slug.value == "" then products
    else
      match FindCategory(categories, slug.value)
      case None => products
      case Some(c) => Filter(products, InCategory(c.id))
  }

  /** Category filtering keeps catalog order: splitting the catalog anywhere
      and filtering the halves gives the same listing. */
  lemma GetProductsKeepsOrder(categories: seq<Category>, front: seq<Product>, back: seq<Product>, slug: string)
    requires slug != ""
    requires FindCategory(categories, slug).Some?
    ensures GetProducts(categories, front + back, Some(slug))
         == GetProducts(categories, front, Some(slug)) + GetProducts(categories, back, Some(slug))
  {
    FilterConcat(front, back, InCategory(FindCategory(categories, slug).value.id));
  }

  /** The product page lookup: the first product with the slug, or the
      'Product not found' error when no product has it. */
  function GetProduct(products: seq<Product>, slug: string): (r: Result<Product, string>)
    ensures r.Failure? <==> forall i :: 0 <= i < |products| ==> products[i].slug != slug
    ensures r.Failure? ==> r.error == ProductNotFound
    ensures r.Success? ==> exists i :: 0 <= i < |products| && products[i] == r.value && products[i].slug == slug
                                    && forall j :: 0 <= j < i ==> products[j].slug != slug
  {
    var i := IndexWhere(products, ProductHasSlug(slug));
    if i == -1 then Failure(ProductNotFound) else Success(products[i])
  }

  /** Order submission is a stub: every call fails with 'Not implemented'. */
  function CreateOrder(draft: OrderDraft): (r: Result<int, string>)
    ensures r.Failure? && r.error == NotImplemented
  {
    Failure(NotImplemented)
  }

  /** The built-in catalog (prices in cents). */
  const MockCategories: seq<Category> := [
    Category(1, "Men's Clothing", "mens-clothing"),
    Category(2, "Women's Clothing", "womens-clothing"),
    Category(3, "Accessories", "accessories"),
    Category(4, "Footwear", "footwear")
  ]

  const MockProducts: seq<Product> := [
    Product(1, 1, "Classic White T-Shirt", "classic-white-t-shirt", 2999, 50, true),
    Product(2, 1, "Slim Fit Jeans", "slim-fit-jeans", 7999, 30, true),
    Product(3, 2, "Floral Summer Dress", "floral-summer-dress", 8999, 25, true),
    Product(4, 2, "High-Waist Leggings", "high-waist-leggings", 4999, 40, true),
    Product(5, 3, "Leather Belt", "leather-belt", 3999, 0, false),
    Product(6, 4, "Classic Sneakers", "classic-sneakers", 9999, 15, true)
  ]

  /** On the built-in catalog the 'accessories' listing is the belt alone. */
  lemma MockAccessoriesListing()
    ensures GetProducts(MockCategories, MockProducts, Some("accessories")) == [MockProducts[4]]
  {
    var c := FindCategory(MockCategories, "accessories");
    assert |MockCategories[0].slug| != |"accessories"| && |MockCategories[1].slug| != |"accessories"|;
    assert MockCategories[2].slug == "accessories";
    assert c == Some(MockCategories[2]);
    var ps := MockProducts;
    assert ps[1..] == [ps[1], ps[2], ps[3], ps[4], ps[5]];
    assert ps[2..] == [ps[2], ps[3], ps[4], ps[5]];
    assert ps[3..] == [ps[3], ps[4], ps[5]];
    assert ps[4..] == [ps[4], ps[5]];
    assert ps[5..] == [ps[5]];
    assert Filter(ps[5..], InCategory(3)) == [];
  }

  /** On the built-in catalog a slug naming no category lists everything,
      and a product slug naming no product fails. */
  lemma MockUnknownSlugs()
    ensures GetProducts(MockCategories, MockProducts, Some("hats")) == MockProducts
    ensures GetProduct(MockProducts, "hats") == Failure(ProductNotFound)
  {
    assert forall i :: 0 <= i < |MockCategories| ==> |MockCategories[i].slug| != |"hats"|;
    assert forall i :: 0 <= i < |MockProducts| ==> |MockProducts[i].slug| != |"hats"|;
  }
}

=== FILE: checkout.dfy ===
/** The checkout page's step machine: a step index over three steps
    (Shipping, Payment, Review), moved forward by the primary button and back
    by the Back button, and the progress markers and button label derived
    from it. At the last step the primary button does not change the index:
    it only navigates to the order-confirmation page. No order is submitted
    and the cart is not cleared here. */
module Checkout {
  import opened Wrappers

  const Steps: seq<string> := ["Shipping", "Payment", "Review"]

  const LastStep: int := |Steps| - 1

  const ConfirmationPath: string := "/order-confirmation"

  const PlaceOrder: string := "Place Order"

  const Continue: string := "Continue"

  predicate ValidIndex(i: int) {
    0 <= i < |Steps|
  }

  /** The page's state: on a step, or left for another page. */
  datatype Flow = AtStep(index: int) | Navigated(path: string)

  /** A click on one of the two buttons. */
  datatype Click = Next | Back

  /** The flow opens on the first step. */
  const Start: Flow := AtStep(0)

  /** `handleNext`: the next index and the navigation it triggers, if any. */
  function HandleNext(index: int): (r: (int, Option<string>))
    requires ValidIndex(index)
    ensures ValidIndex(r.0)
    ensures index < LastStep ==> r.0 == index + 1 && r.1.None?
    ensures index == LastStep ==> r.0 == index && r.1 == Some(ConfirmationPath)
  {
    if index < |Steps| - 1 then (index + 1, None) else (index, Some(ConfirmationPath))
  }

  /** The Back button is rendered only above the first step. */
  predicate BackOffered(index: int) {
    index > 0
  }

  /** The Back button's handler; it cannot be clicked where it is not rendered. */
  function GoBack(index: int): (r: int)
    requires ValidIndex(index) && BackOffered(index)
    ensures ValidIndex(r)
    ensures r + 1 == index
  {
    index - 1
  }

  /** The page's reaction to a click. A click on Back where no Back button
      is rendered cannot happen and changes nothing; after navigating away
      the page receives no more clicks. */
  function Step(flow: Flow, click: Click): (r: Flow)
    requires flow.AtStep? ==> ValidIndex(flow.index)
    ensures r.AtStep? ==> ValidIndex(r.index)
  {
    match flow
    case Navigated(_) => flow
    case AtStep(i) =>
      match click
      case Next =>
        var (j, nav) := HandleNext(i);
        if nav.Some? then Navigated(nav.value) else AtStep(j)
      case Back => if BackOffered(i) then AtStep(GoBack(i)) else flow
  }

  function Run(flow: Flow, clicks: seq<Click>): (r: Flow)
    requires flow.AtStep? ==> ValidIndex(flow.index)
    ensures r.AtStep? ==> ValidIndex(r.index)
    decreases |clicks|
  {
    if |clicks| == 0 then flow else Run(Step(flow, clicks[0]), clicks[1..])
  }

  /** The label of the primary button. */
  function PrimaryLabel(index: int): (r: string)
    requires ValidIndex(index)
    ensures r == PlaceOrder <==> index == LastStep
    ensures r == PlaceOrder || r == Continue
  {
    if index == |Steps| - 1 then PlaceOrder else Continue
  }

  /** The heading of the current step. */
  function Title(index: int): (r: string)
    requires ValidIndex(index)
    ensures index == 0 ==> r == "Shipping"
    ensures index == 1 ==> r == "Payment"
    ensures index == LastStep ==> r == "Review"
  {
    Steps[index]
  }

  /** Step circle `i` is highlighted up to and including the current step. */
  predicate CircleHighlighted(i: int, current: int) {
    i <= current
  }

  /** A connector follows every circle but the last. */
  predicate ConnectorShown(i: int) {
    i < |Steps| - 1
  }

  /** Connector `i` is highlighted once the flow has passed circle `i`. */
  predicate ConnectorHighlighted(i: int, current: int) {
    ConnectorShown(i) && i < current
  }

  /** How many of the first `n` circles are highlighted. */
  function HighlightedCircles(n: nat, current: int): nat {
    if n == 0 then 0
    else HighlightedCircles(n - 1, current) + (if CircleHighlighted(n - 1, current) then 1 else 0)
  }

  /** How many of the first `n` connectors are highlighted. */
  function HighlightedConnectors(n: nat, current: int): nat {
    if n == 0 then 0
    else HighlightedConnectors(n - 1, current) + (if ConnectorHighlighted(n - 1, current) then 1 else 0)
  }

  // ---------------------------------------------------------------------
  // Properties
  // ---------------------------------------------------------------------

  /** The flow opens on the Shipping step, with no Back button and the
      primary button reading 'Continue'. */
  lemma StartIsShipping()
    ensures Start.AtStep? && Start.index == 0 && ValidIndex(Start.index)
    ensures Title(Start.index) == "Shipping"
    ensures !BackOffered(Start.index)
    ensures PrimaryLabel(Start.index) == Continue
    ensures Step(Start, Back) == Start
  {
  }

  /** Back undoes Continue: from any step but the last, the next step offers
      Back, and it returns to where the flow was. */
  lemma BackUndoesNext(index: int)
    requires ValidIndex(index) && index < LastStep
    ensures BackOffered(HandleNext(index).0)
    ensures GoBack(HandleNext(index).0) == index
  {
  }

  /** The flow navigates away exactly when the primary button is clicked on
      the last step, and always to the confirmation page. */
  lemma NavigatesOnlyFromLastStep(index: int)
    requires ValidIndex(index)
    ensures Step(AtStep(index), Next).Navigated? <==> index == LastStep
    ensures Step(AtStep(index), Next).Navigated? ==> Step(AtStep(index), Next).path == ConfirmationPath
    ensures Step(AtStep(index), Back).AtStep?
  {
  }

  /** `n` clicks on the primary button from the start reach step `n` while
      there are steps left, and the confirmation page after the last one. */
  lemma {:induction false} ContinueClicks(n: nat)
    ensures var r := Run(Start, seq(n, _ => Next));
            if n <= LastStep then r == AtStep(n) else r == Navigated(ConfirmationPath)
  {
    if n > 0 {
      var clicks := seq(n, _ => Next);
      ContinueClicks(n - 1);
      RunAppend(Start, seq(n - 1, _ => Next), [Next]);
      assert clicks == seq(n - 1, _ => Next) + [Next];
    }
  }

  lemma {:induction false} RunAppend(flow: Flow, a: seq<Click>, b: seq<Click>)
    requires flow.AtStep? ==> ValidIndex(flow.index)
    ensures Run(flow, a + b) == Run(Run(flow, a), b)
    decreases |a|
  {
    if |a| == 0 {
      assert a + b == b;
    } else {
      assert (a + b)[1..] == a[1..] + b;
      RunAppend(Step(flow, a[0]), a[1..], b);
    }
  }

  /** The three-step scenario: two clicks reach the review step, whose button
      reads 'Place Order'; the third click navigates to the confirmation page. */
  lemma CheckoutScenario()
    ensures Run(Start, [Next, Next]) == AtStep(2)
    ensures PrimaryLabel(2) == PlaceOrder && Title(2) == "Review"
    ensures Run(Start, [Next, Next, Next]) == Navigated(ConfirmationPath)
    ensures Run(Start, [Back, Next, Back]) == AtStep(0)
  {
  }

  /** The progress bar highlights the current step's circle and every one
      before it: exactly `current + 1` of the circles. */
  lemma {:induction false} HighlightedCirclesCount(n: nat, current: int)
    requires current >= -1
    ensures HighlightedCircles(n, current) == if n <= current + 1 then n else current + 1
  {
    if n > 0 {
      HighlightedCirclesCount(n - 1, current);
    }
  }

  /** The progress bar highlights exactly one connector per step already
      passed. */
  lemma {:induction false} HighlightedConnectorsCount(n: nat, current: int)
    requires 0 <= current <= LastStep
    ensures HighlightedConnectors(n, current) == if n <= current then n else current
  {
    if n > 0 {
      HighlightedConnectorsCount(n - 1, current);
    }
  }

  /** On the page: `index + 1` highlighted circles and `index` highlighted
      connectors, so each Continue click lights one more of each. */
  lemma ProgressMarkers(index: int)
    requires ValidIndex(index)
    ensures HighlightedCircles(|Steps|, index) == index + 1
    ensures HighlightedConnectors(|Steps|, index) == index
  {
    HighlightedCirclesCount(|Steps|, index);
    HighlightedConnectorsCount(|Steps|, index);
  }
}

=== FILE: http.dfy ===
/** The HTTP status codes the back end's views answer with. */
module Http {
  const Ok: int := 200
  const Created: int := 201
  const BadRequest: int := 400
  const NotFound: int := 404
}

=== FILE: inventory.dfy ===
/** The back end's stock and order arithmetic: the guarded stock update of a
    product, order processing (an all-or-nothing batch that checks stock,
    records each item at the product's current price and takes the stock),
    the order total, the refund that puts the stock back, and the order
    creation endpoint that ties them together. The product table is a map
    from product id to price and stock; decimal prices are integer cents. */
module Inventory {
  import opened Wrappers
  import opened Http

  /** The stock operation names; any name other than "decrease" increases. */
  const Decrease: string := "decrease"
  const Increase: string := "increase"

  datatype ProductRow = ProductRow(price: int, stock: int)

  type Table = map<int, ProductRow>

  datatype PaymentStatus = Pending | Completed | Failed

  /** The one-letter codes the payment status is stored as: 'P' for
      Pending, 'C' for Completed, 'F' for Failed. */
  function StatusCode(s: PaymentStatus): (c: char)
    ensures s == Pending <==> c == 'P'
    ensures s == Completed <==> c == 'C'
    ensures s == Failed <==> c == 'F'
  {
    match s
    case Pending => 'P'
    case Completed => 'C'
    case Failed => 'F'
  }

  /** Distinct statuses are stored as distinct codes. */
  lemma StatusCodesDistinct(a: PaymentStatus, b: PaymentStatus)
    ensures StatusCode(a) == StatusCode(b) ==> a == b
  {
  }

  datatype OrderItem = OrderItem(productId: int, quantity: int, price: int)

  datatype Order = Order(items: seq<OrderItem>, totalPrice: int, status: PaymentStatus)

  /** One entry of the request's item list. */
  datatype ItemRequest = ItemRequest(productId: int, quantity: int)

  /** The two ways processing can fail: too little stock (a validation
      error), or an id with no product behind it (a lookup error). */
  datatype StockError = NotEnoughStock | ProductMissing

  /** A new order: no items, total 0, payment pending. */
  const NewOrder: Order := Order([], 0, Pending)

  lemma NewOrderDefaults()
    ensures NewOrder.status == Pending && StatusCode(NewOrder.status) == 'P'
    ensures NewOrder.items == [] && NewOrder.totalPrice == 0
  {
  }

  // ---------------------------------------------------------------------
  // Product.update_stock
  // ---------------------------------------------------------------------

  /** The stock after `update_stock`, or the validation error it raises. */
  function UpdateStock(stock: int, quantity: int, operation: string): (r: Result<int, StockError>)
    ensures r.Failure? <==> operation == Decrease && stock < quantity
    ensures r.Failure? ==> r.error == NotEnoughStock
    ensures r.Success? && operation == Decrease ==> r.value == stock - quantity && r.value >= 0
    ensures operation != Decrease ==> r == Success(stock + quantity)
  {
    if operation == Decrease then
      if stock < quantity then Failure(NotEnoughStock) else Success(stock - quantity)
    else
      Success(stock + quantity)
  }

  /** An increase undoes a successful decrease, and on non-negative stock a
      decrease of what was just added succeeds and undoes it. */
  lemma UpdateStockRoundTrip(stock: int, quantity: int)
    ensures UpdateStock(stock, quantity, Decrease).Success? ==>
              UpdateStock(UpdateStock(stock, quantity, Decrease).value, quantity, Increase) == Success(stock)
    ensures stock >= 0 ==> UpdateStock(UpdateStock(stock, quantity, Increase).value, quantity, Decrease) == Success(stock)
  {
  }

  // ---------------------------------------------------------------------
  // Demand, and the reference condition for a batch to go through
  // ---------------------------------------------------------------------

  /** Total quantity requested for product `id`. */
  function Demand(reqs: seq<ItemRequest>, id: int): int {
    if |reqs| == 0 then 0
    else (if reqs[0].productId == id then reqs[0].quantity else 0) + Demand(reqs[1..], id)
  }

  /** Total quantity of product `id` held by order items. */
  function Held(items: seq<OrderItem>, id: int): int {
    if |items| == 0 then 0
    else (if items[0].productId == id then items[0].quantity else 0) + Held(items[1..], id)
  }

  /** Every request names a product, and each finds enough stock left after
      the requests before it in the batch. */
  predicate Feasible(table: Table, reqs: seq<ItemRequest>) {
    forall i :: 0 <= i < |reqs| ==>
      reqs[i].productId in table &&
      Demand(reqs[..i], reqs[i].productId) + reqs[i].quantity <= table[reqs[i].productId].stock
  }

  /** The batch stops at a request whose product is missing: some request
      names no product while every request before it passes its checks. A
      batch that fails otherwise fails on too little stock. */
  predicate MissingBeforeShortage(table: Table, reqs: seq<ItemRequest>) {
    exists i :: 0 <= i < |reqs| && Feasible(table, reqs[..i]) && reqs[i].productId !in table
  }

  /** What the batch is worth at the table's prices. */
  function BatchValue(table: Table, reqs: seq<ItemRequest>): int {
    if |reqs| == 0 then 0
    else
      (if reqs[0].productId in table then reqs[0].quantity * table[reqs[0].productId].price else 0)
      + BatchValue(table, reqs[1..])
  }

  /** `items` records `reqs` one for one at the table's prices. */
  predicate Records(table: Table, reqs: seq<ItemRequest>, items: seq<OrderItem>) {
    |items| == |reqs| &&
    forall i :: 0 <= i < |reqs| ==>
      reqs[i].productId in table &&
      items[i] == OrderItem(reqs[i].productId, reqs[i].quantity, table[reqs[i].productId].price)
  }

  predicate SamePrices(a: Table, b: Table) {
    a.Keys == b.Keys && forall id :: id in a ==> a[id].price == b[id].price
  }

  predicate NonNegativeStock(table: Table) {
    forall id :: id in table ==> table[id].stock >= 0
  }

  // ---------------------------------------------------------------------
  // Order.process_order
  // ---------------------------------------------------------------------

  /** The loop of `process_order`: each request re-reads its product, checks
      the stock, records an item at the current price and takes the stock.
      Returns the new table and the recorded items, or the first error. */
  function ProcessItems(table: Table, reqs: seq<ItemRequest>): (r: Result<(Table, seq<OrderItem>), StockError>)
    ensures r.Success? ==> SamePrices(r.value.0, table)
    ensures r.Success? ==> forall id :: id in table ==> r.value.0[id].stock == table[id].stock - Demand(reqs, id)
    ensures r.Success? ==> Records(table, reqs, r.value.1)
    ensures r.Success? && NonNegativeStock(table) ==> NonNegativeStock(r.value.0)
    decreases |reqs|
  {
    if |reqs| == 0 then Success((table, []))
    else
      var q := reqs[0];
      if q.productId !in table then Failure(ProductMissing)
      else
        var row := table[q.productId];
        if row.stock < q.quantity then Failure(NotEnoughStock)
        else
          match UpdateStock(row.stock, q.quantity, Decrease)
          case Failure(e) => Failure(e)
          case Success(s) =>
            var next := table[q.productId := row.(stock := s)];
            match ProcessItems(next, reqs[1..])
            case Failure(e) => Failure(e)
            case Success(rest) =>
              var items := [OrderItem(q.productId, q.quantity, row.price)] + rest.1;
              assert forall i :: 1 <= i < |reqs| ==> items[i] == rest.1[i - 1] && reqs[i] == reqs[1..][i - 1];
              Success((rest.0, items))
  }

  /** One step of the batch: the batch is feasible exactly when its first
      request is, and the rest is on the table that request leaves. */
  lemma FeasibleStep(table: Table, reqs: seq<ItemRequest>)
    requires |reqs| > 0
    ensures Feasible(table, reqs) <==>
              reqs[0].productId in table && reqs[0].quantity <= table[reqs[0].productId].stock &&
              var row := table[reqs[0].productId];
              Feasible(table[reqs[0].productId := row.(stock := row.stock - reqs[0].quantity)], reqs[1..])
  {
    var q := reqs[0];
    if q.productId in table {
      var row := table[q.productId];
      var next := table[q.productId := row.(stock := row.stock - q.quantity)];
      forall i | 1 <= i < |reqs|
        ensures reqs[i].productId in table <==> reqs[i].productId in next
        ensures reqs[i].productId in table ==>
                  (Demand(reqs[..i], reqs[i].productId) + reqs[i].quantity <= table[reqs[i].productId].stock
                   <==> Demand(reqs[1..][..i - 1], reqs[1..][i - 1].productId) + reqs[1..][i - 1].quantity
                        <= next[reqs[1..][i - 1].productId].stock)
      {
        assert reqs[..i][1..] == reqs[1..][..i - 1];
        assert reqs[1..][i - 1] == reqs[i];
      }
      assert Demand(reqs[..0], q.productId) == 0;
      if Feasible(table, reqs) {
        forall j | 0 <= j < |reqs[1..]|
          ensures reqs[1..][j].productId in next
          ensures Demand(reqs[1..][..j], reqs[1..][j].productId) + reqs[1..][j].quantity
                  <= next[reqs[1..][j].productId].stock
        {
          assert reqs[1..][j] == reqs[j + 1];
        }
      }
      if q.quantity <= row.stock && Feasible(next, reqs[1..]) {
        forall i | 0 <= i < |reqs|
          ensures reqs[i].productId in table
          ensures Demand(reqs[..i], reqs[i].productId) + reqs[i].quantity <= table[reqs[i].productId].stock
        {
          if i > 0 {
            assert reqs[1..][i - 1] == reqs[i];
          }
        }
      }
    }
  }

  /** One step of the missing-product condition: the first request names no
      product, or it passes and the rest reaches a missing product on the
      table it leaves. */
  lemma MissingBeforeShortageStep(table: Table, reqs: seq<ItemRequest>)
    requires |reqs| > 0
    ensures MissingBeforeShortage(table, reqs) <==>
              reqs[0].productId !in table ||
              (reqs[0].quantity <= table[reqs[0].productId].stock &&
               var row := table[reqs[0].productId];
               MissingBeforeShortage(table[reqs[0].productId := row.(stock := row.stock - reqs[0].quantity)], reqs[1..]))
  {
    var q := reqs[0];
    assert Feasible(table, reqs[..0]);
    if q.productId in table {
      var row := table[q.productId];
      var next := table[q.productId := row.(stock := row.stock - q.quantity)];
      if MissingBeforeShortage(table, reqs) {
        var i :| 0 <= i < |reqs| && Feasible(table, reqs[..i]) && reqs[i].productId !in table;
        var pre := reqs[..i];
        FeasibleStep(table, pre);
        assert pre[0] == q && pre[1..] == reqs[1..][..i - 1] && reqs[1..][i - 1] == reqs[i];
        assert Feasible(next, reqs[1..][..i - 1]) && reqs[1..][i - 1].productId !in next;
      }
      if q.quantity <= row.stock && MissingBeforeShortage(next, reqs[1..]) {
        var j :| 0 <= j < |reqs[1..]| && Feasible(next, reqs[1..][..j]) && reqs[1..][j].productId !in next;
        var pre := reqs[..j + 1];
        FeasibleStep(table, pre);
        assert pre[0] == q && pre[1..] == reqs[1..][..j] && reqs[1..][j] == reqs[j + 1];
        assert Feasible(table, reqs[..j + 1]) && reqs[j + 1].productId !in table;
      }
    }
  }

  /** One step of the loop: the first request fails on a missing product or
      on too little stock, or it passes and the batch goes through exactly
      when the rest does on the table it leaves. */
  lemma ProcessItemsStep(table: Table, reqs: seq<ItemRequest>)
    requires |reqs| > 0
    ensures reqs[0].productId !in table ==> ProcessItems(table, reqs) == Failure(ProductMissing)
    ensures reqs[0].productId in table && table[reqs[0].productId].stock < reqs[0].quantity ==>
              ProcessItems(table, reqs) == Failure(NotEnoughStock)
    ensures reqs[0].productId in table && reqs[0].quantity <= table[reqs[0].productId].stock ==>
              var row := table[reqs[0].productId];
              (ProcessItems(table, reqs).Success? <==>
               ProcessItems(table[reqs[0].productId := row.(stock := row.stock - reqs[0].quantity)], reqs[1..]).Success?)
  {
  }

  /** The loop fails on a missing product exactly when it reaches one before
      any request runs short of stock; every other failure is a shortage. */
  lemma {:induction false} ProcessItemsErrorKind(table: Table, reqs: seq<ItemRequest>)
    ensures ProcessItems(table, reqs) == Failure(ProductMissing) <==> MissingBeforeShortage(table, reqs)
    decreases |reqs|
  {
    if |reqs| > 0 {
      MissingBeforeShortageStep(table, reqs);
      ProcessItemsStep(table, reqs);
      var q := reqs[0];
      if q.productId in table && q.quantity <= table[q.productId].stock {
        var row := table[q.productId];
        var next := table[q.productId := row.(stock := row.stock - q.quantity)];
        ProcessItemsErrorKind(next, reqs[1..]);
        assert ProcessItems(table, reqs) == ProcessItems(next, reqs[1..]) || ProcessItems(table, reqs).Success?;
      }
    }
  }

  /** The batch goes through exactly when it is feasible. */
  lemma {:induction false} ProcessItemsSucceedsIffFeasible(table: Table, reqs: seq<ItemRequest>)
    ensures ProcessItems(table, reqs).Success? <==> Feasible(table, reqs)
    decreases |reqs|
  {
    if |reqs| > 0 {
      FeasibleStep(table, reqs);
      var q := reqs[0];
      if q.productId in table && q.quantity <= table[q.productId].stock {
        var row := table[q.productId];
        var next := table[q.productId := row.(stock := row.stock - q.quantity)];
        ProcessItemsSucceedsIffFeasible(next, reqs[1..]);
      }
      ProcessItemsStep(table, reqs);
    }
  }

  /** Recorded items are worth the batch's value at the table's prices. */
  lemma {:induction false} RecordedValue(table: Table, reqs: seq<ItemRequest>, items: seq<OrderItem>)
    requires Records(table, reqs, items)
    ensures LineSum(items) == BatchValue(table, reqs)
    decreases |reqs|
  {
    if |reqs| > 0 {
      assert forall i :: 0 <= i < |reqs| - 1 ==> reqs[1..][i] == reqs[i + 1] && items[1..][i] == items[i + 1];
      RecordedValue(table, reqs[1..], items[1..]);
    }
  }

  /** Recorded items hold exactly the requested quantities. */
  lemma {:induction false} RecordedHeld(table: Table, reqs: seq<ItemRequest>, items: seq<OrderItem>, id: int)
    requires Records(table, reqs, items)
    ensures Held(items, id) == Demand(reqs, id)
    decreases |reqs|
  {
    if |reqs| > 0 {
      assert forall i :: 0 <= i < |reqs| - 1 ==> reqs[1..][i] == reqs[i + 1] && items[1..][i] == items[i + 1];
      RecordedHeld(table, reqs[1..], items[1..], id);
    }
  }

  // ---------------------------------------------------------------------
  // Order.update_total
  // ---------------------------------------------------------------------

  /** Sum of quantity times price over the items. */
  function LineSum(items: seq<OrderItem>): int {
    if |items| == 0 then 0 else items[0].quantity * items[0].price + LineSum(items[1..])
  }

  lemma {:induction false} LineSumAppend(a: seq<OrderItem>, b: seq<OrderItem>)
    ensures LineSum(a + b) == LineSum(a) + LineSum(b)
    decreases |a|
  {
    if |a| == 0 {
      assert a + b == b;
    } else {
      assert (a + b)[1..] == a[1..] + b;
      LineSumAppend(a[1..], b);
    }
  }

  /** `update_total`: the total becomes the sum over all of the order's
      items; nothing else changes. */
  function UpdateTotal(order: Order): (r: Order)
    ensures r.items == order.items && r.status == order.status
    ensures r.totalPrice == LineSum(order.items)
    ensures |order.items| == 0 ==> r.totalPrice == 0
  {
    order.(totalPrice := LineSum(order.items))
  }

  /** The outcome of `process_order`: the table, the order, and the error
      raised, if any. */
  datatype Processed = Processed(table: Table, order: Order, error: Option<StockError>)

  /** `process_order` as one transaction: on an error neither the table nor
      the order changes; on success the items are appended at the current
      prices, the stock is taken and the total recomputed. */
  function ProcessOrder(table: Table, order: Order, reqs: seq<ItemRequest>): (r: Processed)
    ensures r.error.None? <==> Feasible(table, reqs)
    ensures r.error == Some(ProductMissing) <==> MissingBeforeShortage(table, reqs)
    ensures r.error == Some(NotEnoughStock) <==> !Feasible(table, reqs) && !MissingBeforeShortage(table, reqs)
    ensures r.error.Some? ==> r.table == table && r.order == order
    ensures r.error.None? ==>
              && SamePrices(r.table, table)
              && (forall id :: id in table ==> r.table[id].stock == table[id].stock - Demand(reqs, id))
              && |order.items| <= |r.order.items|
              && r.order.items[..|order.items|] == order.items
              && Records(table, reqs, r.order.items[|order.items|..])
              && r.order.totalPrice == LineSum(order.items) + BatchValue(table, reqs)
              && r.order.status == order.status
  {
    ProcessItemsSucceedsIffFeasible(table, reqs);
    ProcessItemsErrorKind(table, reqs);
    match ProcessItems(table, reqs)
    case Failure(e) =>
      assert e == NotEnoughStock <==> !MissingBeforeShortage(table, reqs);
      Processed(table, order, Some(e))
    case Success((t, items)) =>
      var all := order.items + items;
      assert all[..|order.items|] == order.items && all[|order.items|..] == items;
      LineSumAppend(order.items, items);
      RecordedValue(table, reqs, items);
      Processed(t, UpdateTotal(order.(items := all)), None)
  }

  /** The error reported depends on the order of the requests: the first
      failing request decides it. */
  lemma ErrorKindFollowsRequestOrder()
    ensures var t := map[1 := ProductRow(100, 0)];
            && ProcessOrder(t, NewOrder, [ItemRequest(1, 5), ItemRequest(2, 1)]).error == Some(NotEnoughStock)
            && ProcessOrder(t, NewOrder, [ItemRequest(2, 1), ItemRequest(1, 5)]).error == Some(ProductMissing)
  {
    var t := map[1 := ProductRow(100, 0)];
    var a := [ItemRequest(1, 5), ItemRequest(2, 1)];
    var b := [ItemRequest(2, 1), ItemRequest(1, 5)];
    assert Demand(a[..0], 1) == 0;
    assert !Feasible(t, a);
    MissingBeforeShortageStep(t, a);
    assert b[0].productId !in t;
    assert !Feasible(t, b);
    MissingBeforeShortageStep(t, b);
  }

  /** Non-negative stock stays non-negative through processing. */
  lemma ProcessOrderKeepsStockNonNegative(table: Table, order: Order, reqs: seq<ItemRequest>)
    requires NonNegativeStock(table)
    ensures NonNegativeStock(ProcessOrder(table, order, reqs).table)
  {
    match ProcessItems(table, reqs)
    case Failure(_) =>
    case Success(_) =>
  }

  // ---------------------------------------------------------------------
  // Order.refund
  // ---------------------------------------------------------------------

  /** Every item refers to a product in the table. */
  predicate ItemsInTable(table: Table, items: seq<OrderItem>) {
    forall i :: 0 <= i < |items| ==> items[i].productId in table
  }

  /** Adds each item's quantity back to its product's stock. */
  function RestoreStock(table: Table, items: seq<OrderItem>): (r: Table)
    requires ItemsInTable(table, items)
    ensures SamePrices(r, table)
    ensures forall id :: id in table ==> r[id].stock == table[id].stock + Held(items, id)
    decreases |items|
  {
    if |items| == 0 then table
    else
      var row := table[items[0].productId];
      var next := table[items[0].productId := row.(stock := UpdateStock(row.stock, items[0].quantity, Increase).value)];
      assert ItemsInTable(next, items[1..]) by {
        assert forall i :: 0 <= i < |items| - 1 ==> items[1..][i] == items[i + 1];
      }
      RestoreStock(next, items[1..])
  }

  /** `refund`: every item's quantity goes back to its product and the
      order is marked Failed. The items and the total stay as they are. */
  function Refund(table: Table, order: Order): (r: (Table, Order))
    requires ItemsInTable(table, order.items)
    ensures SamePrices(r.0, table)
    ensures forall id :: id in table ==> r.0[id].stock == table[id].stock + Held(order.items, id)
    ensures r.1 == order.(status := Failed)
  {
    (RestoreStock(table, order.items), order.(status := Failed))
  }

  /** Processing a new order and then refunding it restores every product's
      stock, and leaves the order Failed with its items recorded. */
  lemma ProcessThenRefundRestores(table: Table, reqs: seq<ItemRequest>)
    requires Feasible(table, reqs)
    ensures var p := ProcessOrder(table, NewOrder, reqs);
            && ItemsInTable(p.table, p.order.items)
            && Refund(p.table, p.order).0 == table
            && Refund(p.table, p.order).1.status == Failed
  {
    var p := ProcessOrder(table, NewOrder, reqs);
    assert p.order.items[0..] == p.order.items;
    var r := Refund(p.table, p.order).0;
    forall id | id in table
      ensures r[id] == table[id]
    {
      RecordedHeld(table, reqs, p.order.items, id);
    }
  }

  // ---------------------------------------------------------------------
  // OrderViewSet.create
  // ---------------------------------------------------------------------

  /** The call that creates the payment intent with the payment provider:
      the intent is created (no money is taken yet), or the call, or anything
      after it in the request, raises. */
  datatype Intent = IntentCreated | ProviderError

  /** The table and the stored order after the request, and the status code. */
  datatype Creation = Creation(table: Table, order: Order, status: int)

  /** Order creation: a new order is stored first; too little stock answers
      400 and leaves that empty Pending order behind; a missing product, or
      an error from the payment-intent call, refunds the order, marking it
      Failed, and answers 400; otherwise the payment intent is created and
      the order, still Pending, is answered with 201. */
  function CreateOrder(table: Table, reqs: seq<ItemRequest>, intent: Intent): (r: Creation)
    ensures r.status == Created || r.status == BadRequest
    ensures r.status == Created <==> Feasible(table, reqs) && intent == IntentCreated
    ensures r.status == Created ==> r.order == ProcessOrder(table, NewOrder, reqs).order && r.order.status == Pending
    ensures !Feasible(table, reqs) && !MissingBeforeShortage(table, reqs) ==> r.order == NewOrder && r.table == table
    ensures MissingBeforeShortage(table, reqs) ==> r.order == NewOrder.(status := Failed) && r.table == table
    ensures Feasible(table, reqs) && intent == ProviderError ==> r.order.status == Failed
  {
    var p := ProcessOrder(table, NewOrder, reqs);
    match p.error
    case Some(NotEnoughStock) => Creation(table, NewOrder, BadRequest)
    case Some(ProductMissing) =>
      var (t, o) := Refund(table, NewOrder);
      Creation(t, o, BadRequest)
    case None =>
      assert p.order.items[0..] == p.order.items;
      if intent == IntentCreated then Creation(p.table, p.order, Created)
      else
        var (t, o) := Refund(p.table, p.order);
        Creation(t, o, BadRequest)
  }

  /** A request that does not create an order leaves every product's stock
      as it was; one that does takes exactly the requested quantities. */
  lemma CreateOrderStock(table: Table, reqs: seq<ItemRequest>, intent: Intent)
    ensures CreateOrder(table, reqs, intent).status == BadRequest ==> CreateOrder(table, reqs, intent).table == table
    ensures CreateOrder(table, reqs, intent).status == Created ==>
              forall id :: id in table ==>
                CreateOrder(table, reqs, intent).table[id].stock == table[id].stock - Demand(reqs, id)
  {
    var p := ProcessOrder(table, NewOrder, reqs);
    if p.error == Some(ProductMissing) {
      assert RestoreStock(table, []) == table;
    } else if p.error.None? && intent == ProviderError {
      ProcessThenRefundRestores(table, reqs);
    }
  }

  /** Two units on hand: an order for two goes through and empties the
      shelf; a second order for one is refused and changes nothing. */
  lemma CreateOrderScenario()
    ensures var t := map[7 := ProductRow(2999, 2)];
            var first := CreateOrder(t, [ItemRequest(7, 2)], IntentCreated);
            && first.status == Created
            && first.table[7] == ProductRow(2999, 0)
            && first.order.totalPrice == 5998
            && CreateOrder(first.table, [ItemRequest(7, 1)], IntentCreated) == Creation(first.table, NewOrder, BadRequest)
  {
    var t := map[7 := ProductRow(2999, 2)];
    var reqs := [ItemRequest(7, 2)];
    assert Demand(reqs[..0], 7) == 0;
    assert Feasible(t, reqs);
    var first := CreateOrder(t, reqs, IntentCreated);
    assert first.table[7].stock == 2 - Demand(reqs, 7);
    var second := [ItemRequest(7, 1)];
    assert Demand(second[..0], 7) == 0;
    assert !Feasible(first.table, second);
    ProcessItemsSucceedsIffFeasible(first.table, second);
  }
}

=== FILE: navbar.dfy ===
/** The navigation bar's logic: the item count shown on the Cart link, the
    rule that decides which link is highlighted for the current location,
    and the condition under which a link shows a count badge. */
module Navbar {
  import opened Wrappers
  import opened Catalog
  import opened Cart

  /** `totalItems`: the fold over the item quantities, which is their sum. */
  function TotalItems(items: seq<CartItem>): (n: int)
    ensures n == SumOf(items, Quantity)
    ensures |items| == 0 ==> n == 0
  {
    FoldIsSum(items, Quantity, 0);
    Fold(items, Quantity, 0)
  }

  /** Adding `quantity` units of a product raises the count by exactly
      `quantity`, whether the product was merged or appended. */
  lemma TotalItemsAfterAdd(s: CartState, product: Product, quantity: int)
    ensures TotalItems(Reduce(s, AddItem(product, quantity)).items) == TotalItems(s.items) + quantity
  {
    var k := IndexOfProduct(s.items, product.id);
    if k > -1 {
      SumOfUpdate(s.items, k, CartItem(s.items[k].product, s.items[k].quantity + quantity), Quantity);
    } else {
      SumOfAppend(s.items, [CartItem(product, quantity)], Quantity);
    }
  }

  /** Setting a product's quantity changes the count by the difference, for
      a product held in one item. */
  lemma TotalItemsAfterUpdate(s: CartState, id: int, quantity: int, k: int)
    requires UniqueIds(s.items)
    requires 0 <= k < |s.items| && s.items[k].product.id == id
    ensures TotalItems(Reduce(s, UpdateQuantity(id, quantity)).items)
         == TotalItems(s.items) - s.items[k].quantity + quantity
  {
    var r := Reduce(s, UpdateQuantity(id, quantity));
    var x := CartItem(s.items[k].product, quantity);
    assert r.items == s.items[k := x];
    SumOfUpdate(s.items, k, x, Quantity);
  }

  /** JavaScript's `startsWith`, compared character by character. */
  function StartsWith(s: string, prefix: string): (r: bool)
    ensures r <==> |prefix| <= |s| && s[..|prefix|] == prefix
  {
    if |prefix| == 0 then true
    else if |s| == 0 then false
    else
      assert |prefix| <= |s| && s[..|prefix|] == prefix ==> s[1..][..|prefix| - 1] == prefix[1..];
      assert |prefix| <= |s| && s[0] == prefix[0] && s[1..][..|prefix| - 1] == prefix[1..] ==> s[..|prefix|] == prefix;
      s[0] == prefix[0] && StartsWith(s[1..], prefix[1..])
  }

  /** `isActive`: the home link is active only on the home page itself;
      every other link is active on any location that begins with its path. */
  function IsActive(pathname: string, path: string): (r: bool)
    ensures path == "/" ==> (r <==> pathname == "/")
    ensures path != "/" ==> (r <==> |path| <= |pathname| && pathname[..|path|] == path)
    ensures r ==> |path| <= |pathname|
  {
    if path == "/" then pathname == "/" else StartsWith(pathname, path)
  }

  /** The highlighting rule stated as path extension: a link other than home
      is active exactly on the locations that extend its path. */
  lemma IsActiveMeansExtension(pathname: string, path: string)
    ensures path == "/" ==> (IsActive(pathname, path) <==> pathname == "/")
    ensures path != "/" ==> (IsActive(pathname, path) <==> exists rest: string :: pathname == path + rest)
  {
    if path != "/" && IsActive(pathname, path) {
      assert pathname == path + pathname[|path|..];
    }
  }

  /** The prefix test is textual, not per path segment: '/productsX' and
      '/products/classic-sneakers' both highlight the Shop link, while the
      home link is not highlighted on '/products'. */
  lemma PrefixIsTextual()
    ensures IsActive("/productsX", "/products")
    ensures IsActive("/products/classic-sneakers", "/products")
    ensures !IsActive("/products", "/")
  {
    assert "/productsX" == "/products" + "X";
    assert "/products/classic-sneakers" == "/products" + "/classic-sneakers";
  }

  /** The home and Shop links are never highlighted together. */
  lemma HomeAndShopExclusive(pathname: string)
    ensures !(IsActive(pathname, "/") && IsActive(pathname, "/products"))
  {
    if IsActive(pathname, "/") {
      assert pathname == "/";
    }
  }

  // ---------------------------------------------------------------------
  // The count badge
  // ---------------------------------------------------------------------

  /** What a link renders after its label in the badge position. */
  datatype BadgeSlot = Nothing | StrayText(text: int) | Badge(count: int)

  datatype NavLink = NavLink(path: string, caption: string, count: Option<int>)

  /** The four links; only Cart carries a count, the cart's item count. */
  function NavLinks(totalItems: int): (r: seq<NavLink>)
    ensures |r| == 4
    ensures r[0].path == "/" && r[1].path == "/products" && r[2].path == "/cart" && r[3].path == "/orders"
    ensures forall i :: 0 <= i < |r| ==> (r[i].count.Some? <==> i == 2)
    ensures r[2].caption == "Cart" && r[2].count == Some(totalItems)
  {
    [ NavLink("/", "Home", None),
      NavLink("/products", "Shop", None),
      NavLink("/cart", "Cart", Some(totalItems)),
      NavLink("/orders", "Account", None) ]
  }

  /** `{count && count > 0 && <badge/>}` as the page renders it. An absent
      count and `false` render nothing, but a count of 0 makes the whole
      expression the number 0, which is rendered as the text "0". */
  function BadgeAsWritten(count: Option<int>): (r: BadgeSlot)
    ensures r.Badge? <==> count.Some? && count.value > 0
    ensures r.Badge? ==> r.count == count.value
    ensures r.StrayText? <==> count == Some(0)
  {
    match count
    case None => Nothing
    case Some(c) =>
      if c == 0 then StrayText(0)
      else if c > 0 then Badge(c)
      else Nothing
  }

  /** The evident intent: a badge when the count is defined and positive,
      and nothing at all otherwise. */
  function BadgeCorrected(count: Option<int>): (r: BadgeSlot)
    ensures r.Badge? <==> count.Some? && count.value > 0
    ensures r.Badge? ==> r.count == count.value
    ensures !r.Badge? ==> r == Nothing
  {
    if count.Some? && count.value > 0 then Badge(count.value) else Nothing
  }

  /** The two agree on every count but 0; with an empty cart the written
      condition renders "0" after the Cart label. */
  lemma BadgeDiscrepancy(count: Option<int>)
    ensures count != Some(0) ==> BadgeAsWritten(count) == BadgeCorrected(count)
    ensures BadgeAsWritten(NavLinks(TotalItems(InitialState.items))[2].count) == StrayText(0)
    ensures BadgeCorrected(NavLinks(TotalItems(InitialState.items))[2].count) == Nothing
  {
  }

  /** Only the Cart link can show a badge, and it shows the cart's count:
      both as the page is written and as intended. As written the Cart link
      shows the stray "0" exactly when the cart holds no units. */
  lemma OnlyCartHasBadge(items: seq<CartItem>)
    ensures forall i :: 0 <= i < 4 && i != 2 ==> BadgeAsWritten(NavLinks(TotalItems(items))[i].count) == Nothing
    ensures forall i :: 0 <= i < 4 && i != 2 ==> BadgeCorrected(NavLinks(TotalItems(items))[i].count) == Nothing
    ensures TotalItems(items) > 0 ==> BadgeAsWritten(NavLinks(TotalItems(items))[2].count) == Badge(TotalItems(items))
    ensures TotalItems(items) > 0 ==> BadgeCorrected(NavLinks(TotalItems(items))[2].count) == Badge(TotalItems(items))
    ensures BadgeAsWritten(NavLinks(TotalItems(items))[2].count).StrayText? <==> TotalItems(items) == 0
  {
  }
}

=== FILE: seqs.dfy ===
/** The two array searches the storefront is built on, as pure functions on
    sequences: `findIndex` (with its -1 sentinel) and `filter`. */
module Seqs {

  /** Index of the first element satisfying `p`, or -1 when none does
      (JavaScript's `Array.prototype.findIndex`). */
  function IndexWhere<T>(s: seq<T>, p: T -> bool): (r: int)
    ensures -1 <= r < |s|
    ensures r == -1 <==> forall i :: 0 <= i < |s| ==> !p(s[i])
    ensures 0 <= r ==> p(s[r]) && forall j :: 0 <= j < r ==> !p(s[j])
  {
    if |s| == 0 then -1
    else if p(s[0]) then 0
    else
      var k := IndexWhere(s[1..], p);
      if k == -1 then -1 else k + 1
  }

  /** The elements of `s` satisfying `p`, in their original order
      (JavaScript's `Array.prototype.filter`). */
  function Filter<T>(s: seq<T>, p: T -> bool): (r: seq<T>)
    ensures |r| <= |s|
    ensures forall i :: 0 <= i < |r| ==> r[i] in s && p(r[i])
    ensures forall i :: 0 <= i < |s| && p(s[i]) ==> s[i] in r
  {
    if |s| == 0 then []
    else if p(s[0]) then [s[0]] + Filter(s[1..], p)
    else Filter(s[1..], p)
  }

  /** Filtering commutes with concatenation: the kept elements of each part
      stay in place, so the relative order of what is kept never changes. */
  lemma {:induction false} FilterConcat<T>(a: seq<T>, b: seq<T>, p: T -> bool)
    ensures Filter(a + b, p) == Filter(a, p) + Filter(b, p)
  {
    if |a| == 0 {
      assert a + b == b;
    } else {
      assert (a + b)[1..] == a[1..] + b;
      FilterConcat(a[1..], b, p);
    }
  }

  /** When every element satisfies `p`, filtering returns the sequence itself. */
  lemma {:induction false} FilterKeepsAll<T>(s: seq<T>, p: T -> bool)
    requires forall i :: 0 <= i < |s| ==> p(s[i])
    ensures Filter(s, p) == s
  {
    if |s| > 0 {
      FilterKeepsAll(s[1..], p);
      assert [s[0]] + s[1..] == s;
    }
  }
}

=== FILE: wrappers.dfy ===
/** Failure-carrying datatypes shared by the rest of the model: an optional
    value (a missing request field, a `find` that matched nothing) and a
    result that is either a value or an error (a raised exception, an error
    response). */
module Wrappers {

  datatype Option<+T> = None | Some(value: T)

  datatype Result<+R, +E> = Success(value: R) | Failure(error: E)
}
